=== FILE: README.md ===
# roadmap-render: the wireframe-to-SVG renderer in Dafny

roadmap-render turns a Balsamiq-style wireframe document (a `mockup` holding a
tree of `controls`) into an SVG element. `wireframeJSONToSVG` fills in the
options' defaults and computes the root `svg` element's `viewBox` from the
mockup's sizes. It then sorts the top-level controls by `zOrder` and hands each
one to a `Renderer`.

`Renderer.render` dispatches on the control's `typeID` to one drawing routine:

- `TextArea` and `Canvas` draw a rectangle.
- `Label` draws text.
- `TextInput` draws a rectangle, then centred text.
- `Arrow` draws a quadratic path.
- `Icon` draws a circle, plus a check mark for `check-circle`.
- `HRule` draws a horizontal line.
- `__group__` creates a `g` element, sorts its children by `zOrder`, adds its own
  `x`/`y` to each child in place, and renders the child into the `g`.
- An unknown type draws nothing and logs one `console.error`.

Text may carry inline colour markup: `{color:CODE}text{color}`. It is split into
`tspan` runs. A `CODE` starting with `#` is used as the fill as is. Any other
`CODE` is looked up in the palette at the index given by its last digit, or at
index 5 when the last character is not a digit.

The model has several layers:

- **Pure layer (value functions)**: colour decoding (`Colors`), markup
  splitting (`Markup`), the geometry of each shape (`Shapes`), the z-order sort
  (`ZOrder`), and the coordinate threading through groups (`Placement`).
- **Scene functions**: `Scene` states, as functions of the control tree, which
  elements and diagnostics rendering produces.
- **Imperative layer**: `Rendering` holds the `Renderer` and `Container`
  classes. Their methods append to the containers' `children` and to the
  renderer's `diagnostics`. Each method is proved against the scene functions.
- **Entry point**: `Convert` models `wireframeJSONToSVG`.

Modelling conventions:

- **Numbers.** Geometry fields are stored as what `Number.parseInt` makes of
  them: a `Num`, which is `NaN` or an exact real.
- **Colour bit operations.** The 32-bit shifts and masks of `decimalToRGB` are
  written out on integer colour values: JavaScript's ToInt32, floor division by
  a power of two, and a remainder modulo 256.
- **Collaborators.** Canvas text measurement and the `DEFAULT_COLORS` table are
  functions passed in through `Svg.Env`.
- **In-place sort and shift.** These are captured by `Render` returning the
  control as the traversal leaves it. That result is `Placement.Place`. Every
  group's children are sorted, and every position is made absolute.

Two details of the code are easy to misread. The model follows the code in
both:

- **Palette key.** The palette is indexed by the whole colour code
  (`DEFAULT_COLORS[colorCode][...]`), not by the code with its digit removed.
- **Centred text without `w`.** The anchor uses
  `parseInt(String(control.w)) ?? ...`. `parseInt` returns `NaN`, never
  `undefined`, so the `measuredW` fallback is dead code. A centred text without
  `w` gets a `NaN` anchor, as `Shapes.TextAnchor` states.

## Model

| member | source | states |
|---|---|---|
| Colors.ToInt32 | src/index.ts:10-12 | the operand of `>>`/`&` is the unique int32 congruent to the colour modulo 2^32 |
| Colors.DecimalToRGB | src/index.ts:9-14 | every decoded colour has three channels in 0..255 |
| Colors.ChannelsOfResidue | src/index.ts:9-14 | decoding depends only on the colour modulo 2^32 |
| Colors.DecodeRecombines | src/index.ts:9-14 | for a 24-bit colour the channels are its bytes (high, middle, low), and packing them gives the colour back |
| Colors.PackDecodes | src/index.ts:9-14 | round trip: decoding the packed `r*65536 + g*256 + b` of three bytes gives the same three bytes |
| Colors.ParseColor | src/index.ts:56-58 | an absent colour gives the default and a present one a byte triple; its exact channels are stated by `Colors.ParseColorBytes` |
| Colors.ParseColorBytes | src/index.ts:56-58 | an absent colour gives the default; a present one gives the three bytes of its value modulo 2^24 |
| Markup.Split | src/index.ts:128 | splitting yields at least one part |
| Markup.SplitLength | src/index.ts:128 | there is one more part than there are delimiter occurrences |
| Markup.DelimsAreMarkers | src/index.ts:128 | every removed delimiter is `{color:` or `{color}` |
| Markup.SplitRoundTrip | src/index.ts:128 | gluing the parts back with the removed delimiters gives the original text |
| Markup.FirstPartIsPrefix | src/index.ts:128 | the first part is a prefix of the text |
| Markup.PartsHaveNoDelim | src/index.ts:128 | no part contains either delimiter |
| Markup.SplitWithoutDelim | src/index.ts:128 | a text with no delimiter splits into itself alone |
| Markup.PlainSplit | src/index.ts:128 | a text without `{` splits into itself alone |
| Markup.SplitAtDelim | src/index.ts:128 | a `{`-free word before a delimiter becomes a part of its own |
| Markup.SegmentSplit | src/index.ts:128 | `a{color:X{color}c` with `{`-free pieces splits into exactly `[a, X, c]` |
| Markup.UpTo | src/index.ts:130 | the field before `}` is a prefix without `}` that stops at the first `}` |
| Markup.BraceFields | src/index.ts:130 | `part.split("}")`'s first two fields: neither contains `}`, the part starts with `code}rest`, and after them comes the end or another `}` |
| Markup.SegmentFields | src/index.ts:130 | the fields of `code}b` are `code` and `b` when neither contains `}` |
| Markup.PaletteIndex | src/index.ts:131-135 | the palette index is at most 9, and unless it is the fallback 5 it is the value of the code's last character, a digit |
| Markup.PaletteIndexOfDigit | src/index.ts:132-135 | a code ending in digit `d` selects palette index `d` |
| Markup.PaletteIndexFallback | src/index.ts:132-135 | an empty code or one not ending in a digit selects index 5 |
| Markup.ResolveFill | src/index.ts:131-136 | a code starting with `#` is the fill itself; any other code is the palette entry under the whole code at `PaletteIndex(code)` (`Markup.PaletteIndexOfDigit`, `Markup.PaletteIndexFallback` give the index) |
| Markup.Classify | src/index.ts:129-142 | a part gets a fill exactly when it contains `}`; the run's text never contains `}`; an unfilled run is the part itself (the full field split is stated by `Markup.ClassifyParts`) |
| Markup.Runs | src/index.ts:122-143 | a text yields at least one run, and a filled run only when it includes `{color:` (the runs themselves are stated by `Markup.RunsWithMarkup` and `Markup.RunsWithoutMarkup`) |
| Markup.ClassifyParts | src/index.ts:128-142 | a part without `}` becomes an unfilled run of itself; a part with `}` becomes a filled run whose text is what follows the first `}` up to the next `}` or the end of the part, filled with the `#` code itself or the palette entry of the code |
| Markup.RunsWithoutMarkup | src/index.ts:122-126 | a text without `{color:` becomes one unfilled run holding the whole text |
| Markup.RunsWithMarkup | src/index.ts:127-143 | with `{color:` present there is one run per split part, in order, each the classification of its part |
| Markup.ColoredSegment | src/index.ts:122-143 | `a{color:CODE}b{color}c` renders as an unfilled `a`, a run `b` filled with the resolved `CODE`, and an unfilled `c` |
| Shapes.ParseFontProperties | src/index.ts:60-68 | italic iff `italic`, bold iff `bold`, size `13px` when absent or empty and `<size>px` otherwise, the renderer's family |
| Shapes.RectangleOf | src/index.ts:75-93 | a rectangle filled with the parsed `color` (white by default) and stroked with the parsed `borderColor` (black by default), both `rgb` byte triples, with fill opacity `backgroundAlpha` (1 when absent); its geometry and defaults are stated by `Shapes.RectangleInset` |
| Shapes.RectangleInset | src/index.ts:75-93 | the rectangle is inset by half the 2.7 border on every side of the control's box (width falls back to `measuredW`, height to `measuredH`); radius 10; a finite width or height gives a size 2.7 smaller, whatever `x` and `y` are; white fill, black stroke and opacity 1 by default; a NaN `x`, `y`, width or height gives a NaN `x`, `y`, width or height |
| Shapes.RectangleExample | src/index.ts:75-93 | a 100x50 control at (10, 10) gives the rectangle (11.35, 11.35, 97.3, 47.3) |
| Shapes.TextOf | src/index.ts:95-121 | a text element with the given fill, the font style, weight and size of `Shapes.ParseFontProperties`, and exactly the runs `Markup.Runs` makes of the text (at least one); its anchor and baseline are stated by `Shapes.TextAnchor` |
| Shapes.TextAnchor | src/index.ts:101-120 | left text is anchored at the control's `x`; centred text's midpoint is the control's midpoint, and NaN when `w` is absent, NaN, or `x` is NaN; the baseline sits half the measured height plus half the ascent below `y`, and is NaN when `y` or `measuredH` is |
| Shapes.CenterWidth | src/index.ts:110 | the width used for centring is `w` when present and NaN when absent, the `measuredW` fallback being unreachable (the anchor it gives is stated by `Shapes.TextAnchor`) |
| Shapes.ArrowDash | src/index.ts:176-182 | the arrow's dash is `0.8 12` exactly for `dotted`, `28 46` exactly for `dashed`, and empty otherwise |
| Shapes.RuleDash | src/index.ts:223-229 | the rule's dash is `0.8, 8` exactly for `dotted`, `18, 30` exactly for `dashed`, and empty otherwise |
| Shapes.DashChoice | src/index.ts:176-229 | a dash pattern is set exactly for `dotted` and `dashed`, with the arrow's and the rule's own patterns |
| Shapes.ArrowOf | src/index.ts:173-195 | a quadratic path stroked with the parsed `color` (black by default) and dashed with the arrow pattern of its `stroke` style (`Shapes.DashChoice` gives the patterns); its curve is stated by `Shapes.ArrowGeometry` |
| Shapes.ArrowGeometry | src/index.ts:184-187 | the curve runs from `p0` to `p2` offset by the control's position; the control point's offset from the chord point `p1.x` along it is perpendicular to the chord, scaled by 3.6·`p1.y`, and zero when `p1.y` is 0; width 4 for every position; a NaN `x` or `y` makes that coordinate of all three points NaN |
| Shapes.IconOf | src/index.ts:197-218 | one circle filled with the parsed `color` (black by default), possibly followed by one more element; the rest is stated by `Shapes.IconGeometry` |
| Shapes.IconGeometry | src/index.ts:197-218 | a radius-10 circle centred 10 right of and below the control's corner; a NaN `x` or `y` gives a NaN centre coordinate; a second element exactly for `check-circle`: a white, undashed polyline of width 3.5 through (x+4.5, y+10), (x+8.5, y+14) and (x+15, y+7.5), all inside the circle |
| Shapes.HRuleOf | src/index.ts:220-240 | a straight line stroked with the parsed `color` (black by default) and dashed with the rule pattern of its `stroke` style (`Shapes.DashChoice` gives the patterns, so `dotted` is `0.8, 8`); the geometry is stated by `Shapes.HRuleGeometry` |
| Shapes.HRuleGeometry | src/index.ts:220-240 | a horizontal line from the control's `x`/`y`, as long as the control's width, with a NaN end when `x` or the width is NaN; width 2.7, black by default |
| ZOrder.Insert | src/index.ts:251 | inserting keeps every element and adds the new one |
| ZOrder.InsertSorted | src/index.ts:251 | inserting into a sorted sequence keeps it sorted |
| ZOrder.SortByZ | src/index.ts:251 | the result is sorted by ascending `zOrder` and is a permutation of the input |
| ZOrder.SortByZStable | src/index.ts:295 | stability: the controls sharing one `zOrder` keep their relative order |
| ZOrder.SortCommutes | src/index.ts:251-253 | sorting commutes with any change that keeps `zOrder`, such as a shift |
| Placement.Shift | src/index.ts:252-253 | shifting changes only `x` and `y`, each the sum of the child's and the group's value, NaN when either is NaN |
| Placement.Place | src/index.ts:242-256 | placing keeps a control's type, `zOrder` and properties; a non-group is only shifted by its parent's position; a group keeps its number of children (the whole tree is stated by `Placement.PlaceIsSortedAbsolute`) |
| Placement.SortedMembers | src/index.ts:251 | every sorted child is one of the group's children |
| Placement.PlaceIsSortedAbsolute | src/index.ts:242-256 | the rendered tree is exactly the tree with positions made absolute and every group's children sorted |
| Placement.AbsoluteAlongPath | src/index.ts:251-254 | a node's absolute position is the sum of its own and all its ancestors' positions; nothing else about it changes |
| Placement.SortTreeReorders | src/index.ts:251 | sorting the tree only reorders group children, and leaves other controls as they are |
| Placement.ShiftThenPlace | src/index.ts:252-254 | shifting a child by the group's position and rendering it is placing it inside the group |
| Placement.PlaceKeepsRootPosition | src/index.ts:295-297 | a top-level control keeps its own position |
| Placement.PlaceEach | src/index.ts:251-254 | the shifted and rendered siblings, one per sibling; `Placement.PlaceEachAt` and `Rendering.Renderer.RenderChildren` state what each is |
| Placement.PlaceEachAt | src/index.ts:251-254 | the i-th placed sibling is the i-th sibling placed inside the parent |
| Placement.PlacedGroup | src/index.ts:242-256 | a group whose sorted children have each been placed is the placed group |
| Scene.DrawTree | src/index.ts:45-54 | an unknown type draws nothing and a known one at least one element; the elements each type draws are stated by `Scene.Dispatch` |
| Scene.DrawAll | src/index.ts:251-255 | one control alone draws its own elements; siblings concatenate, as `Scene.DrawConcat` states |
| Scene.Diags | src/index.ts:51-53 | an unknown type reports exactly one diagnostic naming it, a known non-group type none; a group reports its children's, as `Scene.GroupDraw` states |
| Scene.Dispatch | src/index.ts:45-171 | an unknown type draws nothing and reports exactly one diagnostic naming it; a known non-group type reports nothing; `TextArea` and `Canvas` draw their rectangle, `Label` left-aligned text in `color`, `TextInput` its rectangle then centred text in `textColor`, `Arrow`, `Icon` and `HRule` their own elements, and a group one `g` holding its children's elements |
| Scene.DrawAllConcat | src/index.ts:295-297 | rendering siblings one after another concatenates their elements and their diagnostics |
| Scene.DrawConcat | src/index.ts:295-297 | the elements of concatenated siblings are the two runs' elements, in order |
| Scene.DiagsAll | src/index.ts:51-53 | siblings with none report nothing, and a single control reports its own diagnostics; concatenation is stated by `Scene.DiagsConcat` |
| Scene.DiagsConcat | src/index.ts:295-297 | the diagnostics of concatenated siblings are the two runs' diagnostics, in order |
| Scene.UnknownSiblingSkipped | src/index.ts:51-53 | an unknown control among siblings changes nothing they draw; its diagnostic sits between theirs |
| Scene.GroupDraw | src/index.ts:242-256 | a group draws one `g` with its children's elements and reports its children's diagnostics |
| Rendering.Container.Append | src/index.ts:24-26 | `appendChild` adds the element at the end |
| Rendering.Renderer.constructor | src/index.ts:39-43 | a new renderer keeps the font family and has reported nothing |
| Rendering.Renderer.Render | src/index.ts:45-54 | rendering appends exactly the scene's elements to the container and the scene's diagnostics to the log, and returns the control as the traversal leaves it |
| Rendering.Renderer.DrawRectangle | src/index.ts:75-93 | appends the control's rectangle |
| Rendering.Renderer.AddText | src/index.ts:95-144 | appends the text element whose runs are the classification of the split parts |
| Rendering.Renderer.DrawArrow | src/index.ts:173-195 | appends the arrow path |
| Rendering.Renderer.DrawIcon | src/index.ts:197-218 | appends the circle, then the check mark for `check-circle` |
| Rendering.Renderer.DrawHRule | src/index.ts:220-240 | appends the rule path |
| Rendering.Renderer.DrawGroup | src/index.ts:242-256 | appends one `g` holding the elements of the sorted, shifted children, and returns the placed group |
| Rendering.Renderer.RenderChildren | src/index.ts:251-255 | the children loop renders the placed children in sorted order into the `g` |
| Rendering.Renderer.RenderNext | src/index.ts:252-254 | one turn of the loop shifts the next child and renders it after its earlier siblings |
| Convert.PaddingOf | src/index.ts:260-265 | a padding left out takes the default 5; one given, even `undefined`, replaces it |
| Convert.FamilyOf | src/index.ts:260-265 | a font family left out takes the default `sans-serif`; one given replaces it |
| Convert.Viewport | src/index.ts:279-284 | the view box spans the mockup's drawing (`measuredW - mockupW` to `measuredW`) widened by `padding` on each side; a NaN padding makes all four NaN, a NaN `mockupW` or `mockupH` the corresponding position and size, a NaN `measuredW` or `measuredH` the corresponding position; a finite `mockupW` (`mockupH`) and padding give the width (height) `mockup + 2·padding` whatever `measuredW` (`measuredH`) is |
| Convert.DefaultViewport | src/index.ts:260-284 | with the default padding 5, a 200x100 mockup measured at 210x110 gets the view box `5 5 210 110` |
| Convert.RenderTop | src/index.ts:295-297 | one turn of the top-level loop renders the next sorted control, unshifted, after the earlier ones |
| Convert.WireframeToSvg | src/index.ts:259-299 | the root `svg` has the options' view box and font family and holds the elements of the sorted, placed top-level controls in order; the diagnostics are theirs |

## Left out

- Font loading (`FontFace`, `document.fonts.add`) is I/O and is left out. So is the `fontURL` option that controls it.
- The DOM is left out. `createSVGElement`'s attribute loop, namespaces, the `xmlns` attributes, and how numbers and colours are formatted into attribute strings are not modelled. Elements keep their attributes as structured values.
- Canvas text measurement is a parameter (`Env.measure`).
- `DEFAULT_COLORS` is a parameter (`Env.palette`); src/constants.ts is not part of this model.
- `Number.parseInt` on the raw string fields is not modelled. Fields hold its result (a number or NaN). The group shift parses with radix 10 (src/index.ts:252-253) while the drawing routines call `parseInt` without a radix; the two differ on strings such as `"0x1A"` (0 against 26), and a field holding one parsed value cannot show that difference.
- Colors.ParseColor: colours are integers or absent. The `>>` and `&` of `decimalToRGB` also accept fractional numbers (truncated toward zero), NaN and ±Infinity (taken as 0), and `null` (taken as 0, so `rgb(0,0,0)`); these inputs are not modelled.
- The HRule path's `M${x} ${y}` prints the raw strings. The model uses the parsed values.
- `zOrder` is a string in the document, and the comparator subtracts it. The model takes it as an already numeric integer. A non-numeric `zOrder`, which makes the comparator return NaN, is not modelled.
- Scene.Dispatch: `type in this` also matches the renderer's own helper members (`drawRectangle`, `parseColor`, ...) and inherited object members. The model dispatches over the eight drawing routines only and treats every other tag as unknown.
- Some missing fields make the source throw a TypeError: `properties` on `Label` and `TextInput` (`control.properties.text`, src/index.ts:101); `properties`, `p0`/`p1`/`p2` on `Arrow` and `properties`, `icon` on `Icon` (the destructuring at src/index.ts:174 and 198); `properties` on `HRule` (src/index.ts:221); and a palette name with no entry. The model's `Props` always holds these fields and leaves the exception out. A missing `properties` on `TextArea`, `Canvas` or `__group__` does not throw: those read it through `?.` (src/index.ts:88-90, 243) and render with defaults, which in the model is a `Props` whose `color`, `backgroundAlpha` and `borderColor` are `None` and whose `controlName` is `""`.
- The source appends the `g` element before rendering the children into it. The model appends it after, which gives the same final tree, because the tree is a value here.
- An explicit `fontFamily: undefined` option is not modelled. An explicit `padding: undefined` is modelled as a NaN padding.

=== FILE: colors.dfy ===
/**
 * Colour values of the emitted scene and the decoding of packed 24-bit
 * colours (`decimalToRGB` and `Renderer.parseColor`).
 */
module Colors {
  import opened Wrappers

  /** A colour attribute: an `rgb(r,g,b)` triple, or a code string used verbatim. */
  datatype Color = Rgb(r: int, g: int, b: int) | Code(s: string)

  const TWO32: int := 0x1_0000_0000
  const TWO24: int := 0x100_0000

  const White: Color := Rgb(255, 255, 255)
  const Black: Color := Rgb(0, 0, 0)

  predicate IsByte(n: int) { 0 <= n < 256 }

  predicate IsTriple(c: Color) { c.Rgb? && IsByte(c.r) && IsByte(c.g) && IsByte(c.b) }

  /**
   * JavaScript's ToInt32, applied by the shift and mask operators: the
   * 32-bit two's-complement value congruent to `c`.
   */
  function ToInt32(c: int): (v: int)
    ensures -0x8000_0000 <= v < 0x8000_0000
    ensures (v - c) % TWO32 == 0
  {
    var u := c % TWO32;
    if u >= 0x8000_0000 then u - TWO32 else u
  }

  /**
   * `decimalToRGB`: `(c >> 16) & 255`, `(c >> 8) & 255`, `c & 255`.
   * On a 32-bit value `>> k` is floor division by 2^k (Dafny's `/` on a
   * positive divisor), and `& 255` keeps the low byte of the two's-complement
   * pattern, which is the non-negative remainder modulo 256.
   */
  function DecimalToRGB(c: int): (col: Color)
    ensures IsTriple(col)
  {
    var v := ToInt32(c);
    Rgb((v / 0x1_0000) % 256, (v / 256) % 256, v % 256)
  }

  /** `parseColor`: the default triple when the property is undefined. */
  function ParseColor(color: Option<int>, default: Color): (col: Color)
    ensures color.None? ==> col == default
    ensures color.Some? ==> IsTriple(col)
  {
    match color
    case None => default
    case Some(c) => DecimalToRGB(c)
  }

  /** Packs three channels into one integer, the inverse of `DecimalToRGB`. */
  function Pack(r: int, g: int, b: int): int {
    r * 0x1_0000 + g * 256 + b
  }

  lemma DivDiv256(n: int)
    ensures (n / 256) / 256 == n / 0x1_0000
  {
    var q := n / 256;
    var q2 := q / 256;
    assert n == q * 256 + n % 256;
    assert q == q2 * 256 + q % 256;
    assert n == q2 * 0x1_0000 + ((q % 256) * 256 + n % 256);
    assert 0 <= (q % 256) * 256 + n % 256 < 0x1_0000;
  }

  /** The three channels depend only on the residue of `c` modulo 2^32. */
  lemma ChannelsOfResidue(c: int)
    ensures DecimalToRGB(c) == DecimalToRGB(c % TWO32)
  {
    assert ToInt32(c) == ToInt32(c % TWO32);
  }

  /**
   * For an in-range packed colour the channels are its three bytes and
   * recombine into it.
   */
  lemma {:induction false} DecodeRecombines(c: int)
    requires 0 <= c < TWO24
    ensures var col := DecimalToRGB(c);
      col == Rgb(c / 0x1_0000, (c / 256) % 256, c % 256) &&
      Pack(col.r, col.g, col.b) == c
  {
    assert ToInt32(c) == c;
    DivDiv256(c);
    var q := c / 256;
    assert q == (q / 256) * 256 + q % 256;
    assert c == q * 256 + c % 256;
    assert c / 0x1_0000 < 256;
    assert c == (c / 0x1_0000) * 0x1_0000 + (q % 256) * 256 + c % 256;
  }

  /** Encoding three bytes and decoding gives the same three bytes back. */
  lemma PackDecodes(r: int, g: int, b: int)
    requires IsByte(r) && IsByte(g) && IsByte(b)
    ensures 0 <= Pack(r, g, b) < TWO24
    ensures DecimalToRGB(Pack(r, g, b)) == Rgb(r, g, b)
  {
    var c := Pack(r, g, b);
    assert c / 256 == r * 256 + g;
    assert c % 256 == b;
    DivDiv256(c);
    assert (c / 256) / 256 == r;
    assert (c / 256) % 256 == g;
    assert ToInt32(c) == c;
  }

  lemma MulAtLeast(m: int, d: int)
    requires m >= 1 && d > 0
    ensures m * d >= d
  {
    assert m * d == (m - 1) * d + d;
    assert (m - 1) * d >= 0;
  }

  lemma DivUnique(n: int, d: int, q: int, r: int)
    requires d > 0 && 0 <= r < d && n == q * d + r
    ensures n / d == q && n % d == r
  {
    var q0, r0 := n / d, n % d;
    assert n == q0 * d + r0;
    assert q * d - q0 * d == (q - q0) * d;
    assert (q - q0) * d == r0 - r;
    if q > q0 {
      MulAtLeast(q - q0, d);
    } else if q < q0 {
      MulAtLeast(q0 - q, d);
    }
  }

  lemma DivPlusMultiple(a: int, k: int, d: int)
    requires d > 0
    ensures (a + k * d) / d == a / d + k
    ensures (a + k * d) % d == a % d
  {
    assert a == (a / d) * d + a % d;
    assert a + k * d == (a / d + k) * d + a % d;
    DivUnique(a + k * d, d, a / d + k, a % d);
  }

  /**
   * The colour a property resolves to: the default when undefined, otherwise
   * the three bytes of the value's low 24 bits (any higher bits are ignored,
   * negative values included).
   */
  lemma {:induction false} ParseColorBytes(color: Option<int>, default: Color)
    ensures color.None? ==> ParseColor(color, default) == default
    ensures color.Some? ==>
      var low := color.value % TWO24;
      ParseColor(color, default) == Rgb(low / 0x1_0000, (low / 256) % 256, low % 256)
  {
    if color.Some? {
      var c := color.value;
      var low := c % TWO24;
      var v := ToInt32(c);
      var k := (v - low) / TWO24;
      assert v == low + k * TWO24 by {
        assert (v - c) % TWO32 == 0;
        assert c == (c / TWO24) * TWO24 + low;
        assert v - c == ((v - c) / TWO32) * TWO32;
        assert v - low == (((v - c) / TWO32) * 256 + c / TWO24) * TWO24;
        DivPlusMultiple(0, ((v - c) / TWO32) * 256 + c / TWO24, TWO24);
      }
      DivPlusMultiple(low, k * 0x1_0000, 256);
      DivPlusMultiple(low / 256, k * 256, 256);
      DivPlusMultiple(low, k * 256, 0x1_0000);
      DivDiv256(low);
      assert low / 0x1_0000 < 256;
      DivPlusMultiple(low / 0x1_0000, k, 256);
    }
  }
}

=== FILE: convert.dfy ===
/**
 * `wireframeJSONToSVG`: the options with their defaults, the root `svg`
 * element's `viewBox`, and the top-level loop that sorts the mockup's
 * controls by z-order and renders each into the root.
 */
module Convert {
  import opened Wrappers
  import opened Numbers
  import opened Svg
  import opened Wireframe
  import opened ZOrder
  import opened Placement
  import opened Scene
  import opened Rendering

  /**
   * The `mockup` of a wireframe document. The four sizes hold what
   * `Number.parseInt(String(...))` makes of them.
   */
  datatype Mockup = Mockup(measuredW: Num, measuredH: Num, mockupW: Num, mockupH: Num, controls: seq<Control>)

  /**
   * The caller's options. `None` is a key left out, which takes the default;
   * a `padding` key present with value `undefined` is `Some(NaN)`, since the
   * spread replaces the default with it.
   */
  datatype Options = Options(padding: Option<Num>, fontFamily: Option<string>)

  const DefaultPadding: real := 5.0
  const DefaultFamily: string := "sans-serif"

  function PaddingOf(o: Options): (p: Num)
    ensures o.padding.None? ==> p == Fin(DefaultPadding)
    ensures o.padding.Some? ==> p == o.padding.value
  {
    o.padding.GetOr(Fin(DefaultPadding))
  }

  function FamilyOf(o: Options): (f: string)
    ensures o.fontFamily.None? ==> f == DefaultFamily
    ensures o.fontFamily.Some? ==> f == o.fontFamily.value
  {
    o.fontFamily.GetOr(DefaultFamily)
  }

  /**
   * The root's `viewBox`: the mockup's drawing spans `measuredW - mockupW`
   * to `measuredW` horizontally (and likewise vertically); the view box is
   * that span widened by `padding` on each side. Any NaN input makes the
   * affected coordinates NaN.
   */
  function Viewport(m: Mockup, padding: Num): (vb: ViewBox)
    ensures m.measuredW.Fin? && m.mockupW.Fin? && padding.Fin? ==>
      vb.x.Fin? && vb.width.Fin? &&
      vb.x.v == (m.measuredW.v - m.mockupW.v) - padding.v &&
      vb.x.v + vb.width.v == m.measuredW.v + padding.v
    ensures m.measuredH.Fin? && m.mockupH.Fin? && padding.Fin? ==>
      vb.y.Fin? && vb.height.Fin? &&
      vb.y.v == (m.measuredH.v - m.mockupH.v) - padding.v &&
      vb.y.v + vb.height.v == m.measuredH.v + padding.v
    ensures padding == NaN ==> vb == ViewBox(NaN, NaN, NaN, NaN)
    ensures m.mockupW == NaN ==> vb.x == NaN && vb.width == NaN
    ensures m.mockupH == NaN ==> vb.y == NaN && vb.height == NaN
    ensures m.measuredW == NaN ==> vb.x == NaN
    ensures m.measuredH == NaN ==> vb.y == NaN
    ensures m.mockupW.Fin? && padding.Fin? ==> vb.width == Fin(m.mockupW.v + 2.0 * padding.v)
    ensures m.mockupH.Fin? && padding.Fin? ==> vb.height == Fin(m.mockupH.v + 2.0 * padding.v)
  {
    ViewBox(
      Sub(Sub(m.measuredW, m.mockupW), padding),
      Sub(Sub(m.measuredH, m.mockupH), padding),
      Add(m.mockupW, Double(padding)),
      Add(m.mockupH, Double(padding)))
  }

  /**
   * With the default padding a 200 by 100 mockup measured at 210 by 110 is
   * shown through the view box `5 5 210 110`.
   */
  lemma DefaultViewport(controls: seq<Control>)
    ensures Viewport(Mockup(Fin(210.0), Fin(110.0), Fin(200.0), Fin(100.0), controls), PaddingOf(Options(None, None)))
         == ViewBox(Fin(5.0), Fin(5.0), Fin(210.0), Fin(110.0))
  {
  }

  /**
   * The conversion: the returned `svg` element has the view box and font
   * family of the options and holds the elements of the sorted, placed
   * top-level controls in order; `diagnostics` are the messages the
   * renderer reported, and `placed` is the control tree as the renderer
   * leaves it. Font loading is not modelled.
   */
  method WireframeToSvg(m: Mockup, o: Options, measure: (string, Font) -> Metrics, palette: (string, nat) -> string)
    returns (svg: Element, placed: seq<Control>, diagnostics: seq<Diagnostic>)
    ensures placed == PlaceEach(SortByZ(m.controls), Zero, Zero)
    ensures svg == Svg(Viewport(m, PaddingOf(o)), FamilyOf(o), DrawAll(placed, Env(FamilyOf(o), measure, palette)))
    ensures diagnostics == DiagsAll(placed)
  {
    var env := Env(FamilyOf(o), measure, palette);
    var root := new Container();
    var renderer := new Renderer(env);
    var sorted := SortByZ(m.controls);
    placed := [];
    var i := 0;
    while i < |sorted|
      invariant 0 <= i <= |sorted|
      invariant placed == PlaceEach(sorted[..i], Zero, Zero)
      invariant renderer.env == env
      invariant root.children == DrawAll(placed, env)
      invariant renderer.diagnostics == DiagsAll(placed)
    {
      var p := RenderTop(renderer, root, sorted, i);
      placed := placed + [p];
      i := i + 1;
    }
    assert sorted[..i] == sorted;
    svg := Svg(Viewport(m, PaddingOf(o)), FamilyOf(o), root.children);
    diagnostics := renderer.diagnostics;
  }

  /** One turn of the top-level `forEach`: the `i`-th sorted control is rendered into the root. */
  method RenderTop(renderer: Renderer, root: Container, sorted: seq<Control>, i: nat) returns (p: Control)
    requires i < |sorted|
    requires root.children == DrawAll(PlaceEach(sorted[..i], Zero, Zero), renderer.env)
    requires renderer.diagnostics == DiagsAll(PlaceEach(sorted[..i], Zero, Zero))
    modifies renderer, root
    ensures p == Place(sorted[i], Zero, Zero)
    ensures PlaceEach(sorted[..i + 1], Zero, Zero) == PlaceEach(sorted[..i], Zero, Zero) + [p]
    ensures root.children == DrawAll(PlaceEach(sorted[..i + 1], Zero, Zero), renderer.env)
    ensures renderer.diagnostics == DiagsAll(PlaceEach(sorted[..i + 1], Zero, Zero))
  {
    ghost var earlier := PlaceEach(sorted[..i], Zero, Zero);
    ghost var drawn, reported := root.children, renderer.diagnostics;
    p := renderer.Render(sorted[i], root);
    PlaceEachSnoc(sorted, i, Zero, Zero);
    DrawStep(earlier, p, renderer.env, [], drawn, root.children);
    DiagStep(earlier, p, [], reported, renderer.diagnostics);
  }
}

=== FILE: markup.dfy ===
/**
 * The inline colour markup of `addText`: `text.split(/{color:|{color}/)`
 * and the classification of each part into a coloured or plain `tspan` run.
 */
module Markup {
  import opened Wrappers

  const Open: string := "{color:"
  const Close: string := "{color}"

  /** A `tspan`: an optional `fill` attribute and its text content. */
  datatype Run = Run(fill: Option<string>, content: string)

  /** One of the two delimiters starts `s`. */
  predicate StartsWithDelim(s: string) {
    |s| >= 7 && s[0] == '{' && (s[..7] == Open || s[..7] == Close)
  }

  /** `s.includes(t)` for a non-empty `t`. */
  predicate Includes(s: string, t: string)
    requires |t| > 0
    decreases |s|
  {
    |s| >= |t| && (s[..|t|] == t || Includes(s[1..], t))
  }

  /** `s` contains `{color:` or `{color}` somewhere. */
  predicate HasDelim(s: string)
    decreases |s|
  {
    |s| >= 7 && (StartsWithDelim(s) || HasDelim(s[1..]))
  }

  /**
   * The parts of `split(/{color:|{color}/)`: the text between delimiter
   * occurrences found left to right; a delimiter at the very start or end
   * gives an empty part, and the empty string gives one empty part.
   */
  function Split(s: string): (parts: seq<string>)
    ensures |parts| >= 1
    decreases |s|
  {
    if |s| == 0 then [""]
    else if StartsWithDelim(s) then [""] + Split(s[7..])
    else
      var rest := Split(s[1..]);
      [[s[0]] + rest[0]] + rest[1..]
  }

  /** The delimiter occurrences that `Split` removes, in order. */
  function Delims(s: string): seq<string>
    decreases |s|
  {
    if |s| == 0 then []
    else if StartsWithDelim(s) then [s[..7]] + Delims(s[7..])
    else Delims(s[1..])
  }

  /** The parts glued back together with the delimiters between them. */
  function Interleave(parts: seq<string>, delims: seq<string>): string
    requires |parts| == |delims| + 1
    decreases |delims|
  {
    if delims == [] then parts[0]
    else parts[0] + delims[0] + Interleave(parts[1..], delims[1..])
  }

  lemma {:induction false} SplitLength(s: string)
    ensures |Split(s)| == |Delims(s)| + 1
    decreases |s|
  {
    if |s| == 0 {
    } else if StartsWithDelim(s) {
      SplitLength(s[7..]);
    } else {
      SplitLength(s[1..]);
    }
  }

  /** Every removed delimiter is `{color:` or `{color}`. */
  lemma {:induction false} DelimsAreMarkers(s: string)
    ensures forall d :: d in Delims(s) ==> d == Open || d == Close
    decreases |s|
  {
    if |s| == 0 {
    } else if StartsWithDelim(s) {
      DelimsAreMarkers(s[7..]);
    } else {
      DelimsAreMarkers(s[1..]);
    }
  }

  /**
   * Splitting loses nothing: there is one delimiter between consecutive
   * parts, and interleaving them rebuilds the text.
   */
  lemma {:induction false} SplitRoundTrip(s: string)
    ensures |Split(s)| == |Delims(s)| + 1
    ensures Interleave(Split(s), Delims(s)) == s
    decreases |s|
  {
    SplitLength(s);
    if |s| == 0 {
    } else if StartsWithDelim(s) {
      var tail := s[7..];
      SplitRoundTrip(tail);
      SplitLength(tail);
      var parts, ds := Split(s), Delims(s);
      assert parts == [""] + Split(tail);
      assert ds == [s[..7]] + Delims(tail);
      assert parts[1..] == Split(tail);
      assert ds[1..] == Delims(tail);
      assert Interleave(parts, ds) == "" + s[..7] + Interleave(Split(tail), Delims(tail));
      assert s == s[..7] + tail;
    } else {
      var tail := s[1..];
      SplitRoundTrip(tail);
      InterleaveGlue(s[0], Split(tail), Delims(tail));
      assert s == [s[0]] + tail;
    }
  }

  /** A character glued to the front of the first part comes out in front. */
  lemma InterleaveGlue(c: char, rest: seq<string>, ds: seq<string>)
    requires |rest| == |ds| + 1
    ensures Interleave([[c] + rest[0]] + rest[1..], ds) == [c] + Interleave(rest, ds)
  {
    var parts := [[c] + rest[0]] + rest[1..];
    if ds != [] {
      InterleaveCons(parts, ds);
      InterleaveCons(rest, ds);
      assert parts[1..] == rest[1..];
      AppendAssoc3([c], rest[0], ds[0], Interleave(rest[1..], ds[1..]));
    }
  }

  lemma InterleaveCons(parts: seq<string>, ds: seq<string>)
    requires |parts| == |ds| + 1 && ds != []
    ensures Interleave(parts, ds) == parts[0] + ds[0] + Interleave(parts[1..], ds[1..])
  {
  }

  lemma AppendAssoc3(a: string, b: string, c: string, d: string)
    ensures (a + b) + c + d == a + (b + c + d)
  {
  }

  /** The first part is a prefix of the text. */
  lemma {:induction false} FirstPartIsPrefix(s: string)
    ensures Split(s)[0] <= s
    decreases |s|
  {
    if |s| != 0 && !StartsWithDelim(s) {
      FirstPartIsPrefix(s[1..]);
    }
  }

  /** A prefix of `s` of at least seven characters starts as `s` does. */
  lemma StartsLikePrefix(p: string, s: string)
    requires p <= s && |p| >= 7
    ensures StartsWithDelim(p) == StartsWithDelim(s)
  {
    assert p[..7] == s[..7];
  }

  /** No part contains a delimiter. */
  lemma {:induction false} PartsHaveNoDelim(s: string)
    ensures forall p :: p in Split(s) ==> !HasDelim(p)
    decreases |s|
  {
    if |s| == 0 {
      assert !HasDelim("");
    } else if StartsWithDelim(s) {
      PartsHaveNoDelim(s[7..]);
      assert !HasDelim("");
      assert Split(s) == [""] + Split(s[7..]);
    } else {
      PartsHaveNoDelim(s[1..]);
      FirstPartIsPrefix(s[1..]);
      var rest := Split(s[1..]);
      var first := [s[0]] + rest[0];
      assert first[1..] == rest[0];
      assert rest[0] in rest;
      assert first <= s;
      if |first| >= 7 {
        StartsLikePrefix(first, s);
      }
      assert !HasDelim(first);
      forall p | p in Split(s) ensures !HasDelim(p) {
        if p != first {
          assert p in rest[1..];
        }
      }
    }
  }

  /** Text with no delimiter is a single part. */
  lemma {:induction false} SplitWithoutDelim(s: string)
    requires !HasDelim(s)
    ensures Split(s) == [s]
    decreases |s|
  {
    if |s| != 0 {
      assert !StartsWithDelim(s);
      assert !HasDelim(s[1..]);
      SplitWithoutDelim(s[1..]);
      assert s == [s[0]] + s[1..];
    }
  }

  /** `s.split(ch)[0]`: the text before the first `ch`, or all of `s`. */
  function UpTo(s: string, ch: char): (p: string)
    ensures p <= s && ch !in p
    ensures |p| == |s| || s[|p|] == ch
    decreases |s|
  {
    if |s| == 0 || s[0] == ch then ""
    else [s[0]] + UpTo(s[1..], ch)
  }

  /**
   * `let [colorCode, remainingText] = part.split("}")`: the code before the
   * first `}`, and the text between the first and the second `}` (or the
   * end). Whatever follows a second `}` is dropped.
   */
  function BraceFields(part: string): (f: (string, string))
    requires '}' in part
    ensures '}' !in f.0 && '}' !in f.1
    ensures |f.0| + 1 + |f.1| <= |part|
    ensures part[..|f.0| + 1 + |f.1|] == f.0 + "}" + f.1
    ensures |f.0| + 1 + |f.1| == |part| || part[|f.0| + 1 + |f.1|] == '}'
  {
    var code := UpTo(part, '}');
    assert |code| < |part|;
    var content := UpTo(part[|code| + 1..], '}');
    assert part[..|code| + 1 + |content|] == code + "}" + content by {
      assert part[..|code|] == code;
      assert part[|code|] == '}';
      assert part[|code| + 1..][..|content|] == content;
    }
    (code, content)
  }

  predicate IsDigit(ch: char) { '0' <= ch <= '9' }

  /**
   * `parseInt(code.slice(-1))`, or slot 5 when that is NaN: the digit value
   * of the code's last character, else 5.
   */
  function PaletteIndex(code: string): (i: nat)
    ensures i <= 9
    ensures i != 5 ==> |code| > 0 && IsDigit(code[|code| - 1]) && i == code[|code| - 1] as int - '0' as int
  {
    if |code| > 0 && IsDigit(code[|code| - 1]) then code[|code| - 1] as int - '0' as int else 5
  }

  /** Any name followed by a digit selects that digit's slot. */
  lemma PaletteIndexOfDigit(name: string, d: nat)
    requires d <= 9
    ensures PaletteIndex(name + [('0' as int + d) as char]) == d
  {
  }

  /** A trailing character that is not a digit falls back to slot 5. */
  lemma PaletteIndexFallback(code: string)
    requires |code| == 0 || !IsDigit(code[|code| - 1])
    ensures PaletteIndex(code) == 5
  {
  }

  /**
   * The fill of a coloured run: a code starting with `#` is used verbatim;
   * any other code is looked up in the palette under the WHOLE code string
   * (digit included) at `PaletteIndex(code)`.
   */
  function ResolveFill(code: string, palette: (string, nat) -> string): (fill: string)
    ensures |code| > 0 && code[0] == '#' ==> fill == code
    ensures (|code| == 0 || code[0] != '#') ==> fill == palette(code, PaletteIndex(code))
  {
    if |code| > 0 && code[0] == '#' then code else palette(code, PaletteIndex(code))
  }

  /** The run one split part becomes. */
  function Classify(part: string, palette: (string, nat) -> string): (r: Run)
    ensures r.fill.Some? <==> '}' in part
    ensures '}' !in r.content
    ensures r.fill.None? ==> r.content == part
  {
    if '}' in part then
      var f := BraceFields(part);
      Run(Some(ResolveFill(f.0, palette)), f.1)
    else Run(None, part)
  }

  /** All runs of a text: one plain run unless the text includes `{color:`. */
  function Runs(text: string, palette: (string, nat) -> string): (rs: seq<Run>)
    ensures |rs| >= 1
    ensures forall i :: 0 <= i < |rs| ==> rs[i].fill.None? || Includes(text, Open)
  {
    if !Includes(text, Open) then [Run(None, text)]
    else
      var parts := Split(text);
      seq(|parts|, i requires 0 <= i < |parts| => Classify(parts[i], palette))
  }

  /**
   * A part without `}` is emitted verbatim with no fill; a part with `}` is
   * coloured, and its content is exactly what follows the first `}` up to
   * the next `}`.
   */
  lemma ClassifyParts(part: string, palette: (string, nat) -> string)
    ensures '}' !in part ==> Classify(part, palette) == Run(None, part)
    ensures '}' in part ==>
      var r := Classify(part, palette);
      var code := UpTo(part, '}');
      r.fill.Some? && '}' !in r.content &&
      part[..|code| + 1 + |r.content|] == code + "}" + r.content &&
      (|code| + 1 + |r.content| == |part| || part[|code| + 1 + |r.content|] == '}') &&
      (|code| > 0 && code[0] == '#' ==> r.fill.value == code) &&
      (|code| == 0 || code[0] != '#' ==> r.fill.value == palette(code, PaletteIndex(code)))
  {
    if '}' in part {
      var f := BraceFields(part);
      assert f.0 == UpTo(part, '}');
      assert Classify(part, palette) == Run(Some(ResolveFill(f.0, palette)), f.1);
    }
  }

  /** Without `{color:` the whole text is one uncoloured run. */
  lemma RunsWithoutMarkup(text: string, palette: (string, nat) -> string)
    requires !Includes(text, Open)
    ensures Runs(text, palette) == [Run(None, text)]
  {
  }

  /**
   * With `{color:` present there is one run per part, in order, each the
   * classification of its part.
   */
  lemma RunsWithMarkup(text: string, palette: (string, nat) -> string)
    requires Includes(text, Open)
    ensures |Runs(text, palette)| == |Split(text)|
    ensures forall i :: 0 <= i < |Split(text)| ==> Runs(text, palette)[i] == Classify(Split(text)[i], palette)
  {
  }

  lemma SplitAfterDelim(d: string, rest: string)
    requires d == Open || d == Close
    ensures Split(d + rest) == [""] + Split(rest)
  {
    assert (d + rest)[..7] == d;
    assert (d + rest)[7..] == rest;
  }

  lemma SplitAfterChar(c: char, rest: string)
    requires c != '{'
    ensures Split([c] + rest) == [[c] + Split(rest)[0]] + Split(rest)[1..]
  {
    assert ([c] + rest)[1..] == rest;
    if |[c] + rest| >= 7 {
      assert ([c] + rest)[..7][0] == c;
    }
  }

  /** A word free of `{` stays glued to the first part of what follows. */
  lemma {:induction false} SplitPlainWord(w: string, rest: string)
    requires '{' !in w
    ensures Split(w + rest) == [w + Split(rest)[0]] + Split(rest)[1..]
    decreases |w|
  {
    var split := Split(rest);
    if w != [] {
      var tail := w[1..];
      assert w[0] in w;
      assert w == [w[0]] + tail;
      assert '{' !in tail;
      SplitPlainWord(tail, rest);
      assert w + rest == [w[0]] + (tail + rest);
      SplitAfterChar(w[0], tail + rest);
      assert Split(tail + rest) == [tail + split[0]] + split[1..];
      assert [w[0]] + (tail + split[0]) == w + split[0];
    } else {
      assert w + rest == rest;
      assert w + split[0] == split[0];
      assert split == [split[0]] + split[1..];
    }
  }

  lemma {:induction false} IncludesAfterWord(w: string, rest: string)
    ensures Includes(w + Open + rest, Open)
    decreases |w|
  {
    if w == [] {
      assert (w + Open + rest)[..7] == Open;
    } else {
      IncludesAfterWord(w[1..], rest);
      assert (w + Open + rest)[1..] == w[1..] + Open + rest;
    }
  }

  lemma {:induction false} UpToStops(p: string, ch: char, rest: string)
    requires ch !in p
    ensures UpTo(p + [ch] + rest, ch) == p
    ensures UpTo(p, ch) == p
    decreases |p|
  {
    if p != [] {
      assert p[0] in p;
      UpToStops(p[1..], ch, rest);
      assert (p + [ch] + rest)[1..] == p[1..] + [ch] + rest;
      assert [p[0]] + p[1..] == p;
    } else {
      assert (p + [ch] + rest)[0] == ch;
    }
  }

  /** A `{`-free word followed by a delimiter is a part of its own. */
  lemma SplitAtDelim(w: string, d: string, rest: string)
    requires '{' !in w && (d == Open || d == Close)
    ensures Split(w + d + rest) == [w] + Split(rest)
  {
    SplitAfterDelim(d, rest);
    SplitPlainWord(w, d + rest);
    assert w + d + rest == w + (d + rest);
    assert w + "" == w;
  }

  lemma {:induction false} SegmentSplit(a: string, part: string, c: string)
    requires '{' !in a && '{' !in part && '{' !in c
    ensures Split(a + Open + part + Close + c) == [a, part, c]
  {
    PlainSplit(c);
    var closing := part + Close + c;
    SplitAtDelim(part, Close, c);
    assert Split(closing) == [part, c];
    SplitAtDelim(a, Open, closing);
    assert a + Open + part + Close + c == a + Open + closing;
  }

  /** A text without `{` is a single part. */
  lemma PlainSplit(c: string)
    requires '{' !in c
    ensures Split(c) == [c]
  {
    if HasDelim(c) {
      HasDelimHasBrace(c);
    }
    SplitWithoutDelim(c);
  }

  lemma {:induction false} SegmentFields(code: string, b: string)
    requires '}' !in code && '}' !in b
    ensures '}' in code + "}" + b
    ensures BraceFields(code + "}" + b) == (code, b)
  {
    var part := code + "}" + b;
    assert part[|code|] == '}';
    UpToStops(code, '}', b);
    assert part == code + ['}'] + b;
    assert part[|code| + 1..] == b;
    UpToStops(b, '}', "");
  }

  /**
   * One coloured segment between two plain ones:
   * `a{color:CODE}b{color}c` gives a plain `a`, a run `b` filled with the
   * resolved `CODE`, and a plain `c`.
   */
  lemma {:induction false} ColoredSegment(a: string, code: string, b: string, c: string, palette: (string, nat) -> string)
    requires '{' !in a && '}' !in a && '{' !in c && '}' !in c
    requires '{' !in code && '}' !in code && '{' !in b && '}' !in b
    ensures Runs(a + Open + code + "}" + b + Close + c, palette) ==
      [Run(None, a), Run(Some(ResolveFill(code, palette)), b), Run(None, c)]
  {
    var part := code + "}" + b;
    assert '{' !in part by {
      assert part == code + ['}'] + b;
      assert forall i :: 0 <= i < |part| ==> part[i] != '{' by {
        forall i | 0 <= i < |part| ensures part[i] != '{' {
          if i < |code| { assert part[i] == code[i]; }
          else if i > |code| { assert part[i] == b[i - |code| - 1]; }
        }
      }
    }
    var text := a + Open + part + Close + c;
    assert text == a + Open + code + "}" + b + Close + c;
    SegmentSplit(a, part, c);
    assert text == a + Open + (part + Close + c);
    IncludesAfterWord(a, part + Close + c);
    SegmentFields(code, b);
    var runs := Runs(text, palette);
    assert |runs| == 3;
    assert runs[0] == Classify(a, palette) && runs[1] == Classify(part, palette) && runs[2] == Classify(c, palette);
  }

  lemma {:induction false} HasDelimHasBrace(s: string)
    requires HasDelim(s)
    ensures '{' in s
    decreases |s|
  {
    if StartsWithDelim(s) {
      assert s[0] == s[..7][0] == '{';
    } else {
      HasDelimHasBrace(s[1..]);
    }
  }
}

=== FILE: numbers.dfy ===
/**
 * Numbers as the renderer sees them: the result of `Number.parseInt` on a
 * geometry field, or arithmetic on such results. `NaN` stands for JavaScript's
 * not-a-number, which every arithmetic operation propagates. Finite values are
 * exact reals, so the 1.35 / 2.7 / 3.6 constants carry no rounding.
 */
module Numbers {
  datatype Num = NaN | Fin(v: real)

  /** `a + b`, with NaN absorbing. */
  function Add(a: Num, b: Num): Num {
    if a.Fin? && b.Fin? then Fin(a.v + b.v) else NaN
  }

  /** `a - b`, with NaN absorbing. */
  function Sub(a: Num, b: Num): Num {
    if a.Fin? && b.Fin? then Fin(a.v - b.v) else NaN
  }

  /** `a * 2`. */
  function Double(a: Num): Num {
    if a.Fin? then Fin(a.v * 2.0) else NaN
  }

  /** `a + k` for a finite constant `k`. */
  function Plus(a: Num, k: real): Num {
    if a.Fin? then Fin(a.v + k) else NaN
  }

  /** `a / 2`. */
  function Half(a: Num): Num {
    if a.Fin? then Fin(a.v / 2.0) else NaN
  }

  const Zero: Num := Fin(0.0)

  lemma AddZero(a: Num)
    ensures Add(a, Zero) == a
  {
  }

  lemma AddAssoc(a: Num, b: Num, c: Num)
    ensures Add(Add(a, b), c) == Add(a, Add(b, c))
  {
  }

  lemma AddComm(a: Num, b: Num)
    ensures Add(a, b) == Add(b, a)
  {
  }
}

=== FILE: placement.dfy ===
/**
 * What the `__group__` routine does to the control tree: it sorts each
 * group's children by z-order in place and adds the group's (already
 * absolute) position to every child's `x`/`y` before rendering it, so that
 * nested coordinates become absolute.
 */
module Placement {
  import opened Numbers
  import opened Wireframe
  import opened ZOrder

  /** `child.x = parseInt(child.x) + parseInt(group.x)`, and likewise for `y`. */
  function Shift(k: Control, px: Num, py: Num): (s: Control)
    ensures s == k.(x := s.x, y := s.y)
    ensures k.x.Fin? && px.Fin? ==> s.x == Fin(k.x.v + px.v)
    ensures k.y.Fin? && py.Fin? ==> s.y == Fin(k.y.v + py.v)
    ensures k.x.NaN? || px.NaN? ==> s.x == NaN
    ensures k.y.NaN? || py.NaN? ==> s.y == NaN
  {
    k.(x := Add(k.x, px), y := Add(k.y, py))
  }

  lemma SortedMembers(cs: seq<Control>)
    ensures forall i :: 0 <= i < |SortByZ(cs)| ==> SortByZ(cs)[i] in cs
  {
    var sorted := SortByZ(cs);
    forall i | 0 <= i < |sorted| ensures sorted[i] in cs {
      assert sorted[i] in multiset(sorted);
    }
  }

  /**
   * The control tree after rendering `c` inside a parent at (`px`, `py`):
   * `c` itself is moved by the parent's position; if it is a group its
   * children are sorted and placed relative to its new position. Other
   * controls keep their children untouched. A top-level control is placed
   * at (`Zero`, `Zero`), which leaves its own position as it was.
   */
  function Place(c: Control, px: Num, py: Num): (p: Control)
    ensures p.typeID == c.typeID && p.zOrder == c.zOrder && p.props == c.props
    ensures p.typeID != GroupType ==> p == Shift(c, px, py)
    ensures p.typeID == GroupType ==> |p.children| == |c.children|
    decreases c
  {
    var x := Add(c.x, px);
    var y := Add(c.y, py);
    if c.typeID == GroupType then
      var sorted := SortByZ(c.children);
      SortedMembers(c.children);
      c.(x := x, y := y, children := seq(|sorted|, i requires 0 <= i < |sorted| => Place(sorted[i], x, y)))
    else c.(x := x, y := y)
  }

  /**
   * Reference definition: the offsets threaded down the tree without any
   * reordering (each node's position plus its parent's absolute position).
   */
  function Absolute(c: Control, px: Num, py: Num): Control
    decreases c
  {
    var x := Add(c.x, px);
    var y := Add(c.y, py);
    if c.typeID == GroupType then
      c.(x := x, y := y, children := seq(|c.children|, i requires 0 <= i < |c.children| => Absolute(c.children[i], x, y)))
    else c.(x := x, y := y)
  }

  /** Reference definition: every group's children sorted by z-order, nothing moved. */
  function SortTree(c: Control): Control
    decreases c
  {
    if c.typeID == GroupType then
      var sorted := SortByZ(c.children);
      SortedMembers(c.children);
      c.(children := seq(|sorted|, i requires 0 <= i < |sorted| => SortTree(sorted[i])))
    else c
  }

  lemma PlaceGroup(c: Control, px: Num, py: Num)
    requires c.typeID == GroupType
    ensures var x, y := Add(c.x, px), Add(c.y, py);
      Place(c, px, py) == c.(x := x, y := y, children := MapControls(k => Place(k, x, y), SortByZ(c.children)))
  {
  }

  lemma AbsoluteGroup(c: Control, px: Num, py: Num)
    requires c.typeID == GroupType
    ensures var x, y := Add(c.x, px), Add(c.y, py);
      Absolute(c, px, py) == c.(x := x, y := y, children := MapControls(k => Absolute(k, x, y), c.children))
  {
  }

  lemma SortTreeGroup(c: Control)
    requires c.typeID == GroupType
    ensures SortTree(c) == c.(children := MapControls(SortTree, SortByZ(c.children)))
  {
  }

  /**
   * Placement is exactly the two effects of the group routine and nothing
   * else: offsets accumulated down the tree, then every group's children
   * sorted.
   */
  lemma {:induction false} PlaceIsSortedAbsolute(c: Control, px: Num, py: Num)
    ensures Place(c, px, py) == SortTree(Absolute(c, px, py))
    decreases c
  {
    if c.typeID == GroupType {
      var x := Add(c.x, px);
      var y := Add(c.y, py);
      var fAbs := (k: Control) => Absolute(k, x, y);
      var fPlace := (k: Control) => Place(k, x, y);
      var sorted := SortByZ(c.children);
      SortedMembers(c.children);
      PlaceGroup(c, px, py);
      AbsoluteGroup(c, px, py);
      var abs := Absolute(c, px, py);
      SortTreeGroup(abs);
      SortCommutes(fAbs, c.children);
      assert SortTree(abs).children == MapControls(SortTree, MapControls(fAbs, sorted));
      forall i | 0 <= i < |sorted|
        ensures MapControls(SortTree, MapControls(fAbs, sorted))[i] == MapControls(fPlace, sorted)[i]
      {
        PlaceIsSortedAbsolute(sorted[i], x, y);
      }
      assert MapControls(SortTree, MapControls(fAbs, sorted)) == MapControls(fPlace, sorted);
    }
  }

  /** `p` is a sequence of child indices leading from `c` through groups. */
  predicate IsPath(c: Control, p: seq<nat>)
    decreases |p|
  {
    p == [] || (c.typeID == GroupType && p[0] < |c.children| && IsPath(c.children[p[0]], p[1..]))
  }

  /** The control reached from `c` along `p`. */
  function At(c: Control, p: seq<nat>): Control
    requires IsPath(c, p)
    decreases |p|
  {
    if p == [] then c else At(c.children[p[0]], p[1..])
  }

  /** The sum of the relative `x` of every control on the path, each once. */
  function SumX(c: Control, p: seq<nat>): Num
    requires IsPath(c, p)
    decreases |p|
  {
    if p == [] then c.x else Add(c.x, SumX(c.children[p[0]], p[1..]))
  }

  /** The sum of the relative `y` of every control on the path, each once. */
  function SumY(c: Control, p: seq<nat>): Num
    requires IsPath(c, p)
    decreases |p|
  {
    if p == [] then c.y else Add(c.y, SumY(c.children[p[0]], p[1..]))
  }

  /** Two controls agree on everything but position and children. */
  predicate SameButPosition(a: Control, b: Control) {
    a.id == b.id && a.typeID == b.typeID && a.zOrder == b.zOrder &&
    a.w == b.w && a.h == b.h && a.measuredW == b.measuredW && a.measuredH == b.measuredH &&
    a.props == b.props && |a.children| == |b.children|
  }

  /**
   * A control's absolute position is its own relative position plus that
   * of every ancestor, each added exactly once (and the outer offset), and
   * nothing else about it changes.
   */
  lemma {:induction false} AbsoluteAlongPath(c: Control, p: seq<nat>, px: Num, py: Num)
    requires IsPath(c, p)
    ensures IsPath(Absolute(c, px, py), p)
    ensures var n := At(Absolute(c, px, py), p);
      n.x == Add(SumX(c, p), px) && n.y == Add(SumY(c, p), py) &&
      SameButPosition(n, At(c, p))
    decreases |p|
  {
    if p != [] {
      var x := Add(c.x, px);
      var y := Add(c.y, py);
      var k := c.children[p[0]];
      assert Absolute(c, px, py).children[p[0]] == Absolute(k, x, y);
      AbsoluteAlongPath(k, p[1..], x, y);
      AddAssoc(SumX(k, p[1..]), c.x, px);
      AddComm(SumX(k, p[1..]), c.x);
      AddAssoc(SumY(k, p[1..]), c.y, py);
      AddComm(SumY(k, p[1..]), c.y);
    }
  }

  /**
   * Sorting the tree changes nothing but the order of each group's
   * children, which become the stable z-order sort of the (sorted)
   * subtrees.
   */
  lemma SortTreeReorders(c: Control)
    ensures SortTree(c) == c.(children := SortTree(c).children)
    ensures c.typeID == GroupType ==>
      SortTree(c).children == SortByZ(MapControls(SortTree, c.children))
    ensures c.typeID != GroupType ==> SortTree(c) == c
  {
    if c.typeID == GroupType {
      SortCommutes(SortTree, c.children);
    }
  }

  /** Shifting a child and rendering it at the top is placing it inside its parent. */
  lemma ShiftThenPlace(k: Control, px: Num, py: Num)
    ensures Place(Shift(k, px, py), Zero, Zero) == Place(k, px, py)
  {
  }

  /** A top-level control keeps its own position. */
  lemma PlaceKeepsRootPosition(c: Control)
    ensures Place(c, Zero, Zero).x == c.x && Place(c, Zero, Zero).y == c.y
  {
  }

  /** Siblings placed one after another inside a parent at (`px`, `py`). */
  function PlaceEach(s: seq<Control>, px: Num, py: Num): (r: seq<Control>)
    ensures |r| == |s|
  {
    MapControls(k => Place(k, px, py), s)
  }

  /** The placed siblings are, one for one, the siblings placed inside their parent. */
  lemma PlaceEachAt(s: seq<Control>, px: Num, py: Num)
    ensures forall i :: 0 <= i < |s| ==> PlaceEach(s, px, py)[i] == Place(s[i], px, py)
  {
  }

  lemma PlaceEachSnoc(s: seq<Control>, i: nat, px: Num, py: Num)
    requires i < |s|
    ensures PlaceEach(s[..i + 1], px, py) == PlaceEach(s[..i], px, py) + [Place(s[i], px, py)]
  {
    assert s[..i + 1] == s[..i] + [s[i]];
    MapAppend(k => Place(k, px, py), s[..i], s[i]);
  }

  /** A group whose sorted children have each been placed is the placed group. */
  lemma PlacedGroup(c: Control, kids: seq<Control>)
    requires c.typeID == GroupType
    requires kids == PlaceEach(SortByZ(c.children), c.x, c.y)
    ensures c.(children := kids) == Place(c, Zero, Zero)
  {
    AddZero(c.x);
    AddZero(c.y);
    PlaceGroup(c, Zero, Zero);
  }
}

=== FILE: renderer.dfy ===
/**
 * The `Renderer` class: it appends the elements of each control to a
 * container and reports unknown control types. Rendering a group sorts its
 * children, moves each by the group's position and renders it into a new
 * `g` container; the method returns the control as the traversal leaves it
 * (sorted children, absolute positions).
 */
module Rendering {
  import opened Wrappers
  import opened Numbers
  import opened Colors
  import opened Markup
  import opened Wireframe
  import opened ZOrder
  import opened Placement
  import opened Svg
  import opened Shapes
  import opened Scene

  /** An element under construction that children are appended to. */
  class Container {
    var children: seq<Element>

    constructor ()
      ensures children == []
    {
      children := [];
    }

    /** `parent.appendChild(element)`. */
    method Append(e: Element)
      modifies this
      ensures children == old(children) + [e]
    {
      children := children + [e];
    }
  }

  class Renderer {
    const env: Env
    /** The `console.error` reports, in order. */
    var diagnostics: seq<Diagnostic>

    constructor (env: Env)
      ensures this.env == env && diagnostics == []
    {
      this.env := env;
      diagnostics := [];
    }

    /** `render`: dispatches on the control's type tag. */
    method Render(c: Control, container: Container) returns (placed: Control)
      modifies this, container
      ensures placed == Place(c, Zero, Zero)
      ensures container.children == old(container.children) + DrawTree(placed, env)
      ensures diagnostics == old(diagnostics) + Diags(placed)
      decreases Size(c), 2
    {
      PlaceKeepsRootPosition(c);
      if c.typeID != GroupType {
        assert Place(c, Zero, Zero) == c;
      }
      match c.typeID
      case "TextArea" =>
        DrawRectangle(c, container);
        placed := c;
      case "Canvas" =>
        DrawRectangle(c, container);
        placed := c;
      case "Label" =>
        AddText(c, container, ParseColor(c.props.color, Black), Left);
        placed := c;
      case "TextInput" =>
        DrawRectangle(c, container);
        AddText(c, container, ParseColor(c.props.textColor, Black), Center);
        placed := c;
      case "Arrow" =>
        DrawArrow(c, container);
        placed := c;
      case "Icon" =>
        DrawIcon(c, container);
        placed := c;
      case "HRule" =>
        DrawHRule(c, container);
        placed := c;
      case "__group__" =>
        placed := DrawGroup(c, container);
      case _ =>
        diagnostics := diagnostics + [NotImplemented(c.typeID)];
        placed := c;
    }

    /** `drawRectangle`. */
    method DrawRectangle(c: Control, container: Container)
      modifies container
      ensures container.children == old(container.children) + [RectangleOf(c)]
    {
      container.Append(RectangleOf(c));
    }

    /**
     * `addText`: measures the text, creates the `text` element and appends
     * one `tspan` per run to it.
     */
    method AddText(c: Control, container: Container, fill: Color, align: Align)
      modifies container
      ensures container.children == old(container.children) + [TextOf(c, fill, align, env)]
    {
      var content := TextContent(c);
      var font := ParseFontProperties(c.props, env.family);
      var m := env.measure(content, font);
      var x := if align == Center then Plus(Add(c.x, Half(CenterWidth(c))), -m.width / 2.0) else c.x;
      var y := Plus(Add(c.y, Half(c.measuredH)), m.ascent / 2.0);
      var runs: seq<Run>;
      if !Includes(content, Open) {
        runs := [Run(None, content)];
      } else {
        var parts := Split(content);
        runs := [];
        var i := 0;
        while i < |parts|
          invariant 0 <= i <= |parts|
          invariant runs == seq(i, j requires 0 <= j < i => Classify(parts[j], env.palette))
        {
          runs := runs + [Classify(parts[i], env.palette)];
          i := i + 1;
        }
      }
      container.Append(Text(x, y, fill, font.style, font.weight, font.size, runs));
    }

    /** `Arrow`. */
    method DrawArrow(c: Control, container: Container)
      modifies container
      ensures container.children == old(container.children) + [ArrowOf(c)]
    {
      container.Append(ArrowOf(c));
    }

    /** `Icon`: the circle, then the check mark for `check-circle`. */
    method DrawIcon(c: Control, container: Container)
      modifies container
      ensures container.children == old(container.children) + IconOf(c)
    {
      var icons := IconOf(c);
      container.Append(icons[0]);
      if c.props.iconID == CheckCircle {
        container.Append(icons[1]);
      }
    }

    /** `HRule`. */
    method DrawHRule(c: Control, container: Container)
      modifies container
      ensures container.children == old(container.children) + [HRuleOf(c)]
    {
      container.Append(HRuleOf(c));
    }

    /**
     * `__group__`: creates the `g` element, sorts the children by z-order
     * and renders them into it.
     */
    method DrawGroup(c: Control, container: Container) returns (placed: Control)
      requires c.typeID == GroupType
      modifies this, container
      ensures placed == Place(c, Zero, Zero)
      ensures container.children == old(container.children) + DrawTree(placed, env)
      ensures diagnostics == old(diagnostics) + Diags(placed)
      decreases Size(c), 1
    {
      var g := new Container();
      var sorted := SortByZ(c.children);
      forall k | 0 <= k < |sorted|
        ensures Size(sorted[k]) < Size(c)
      {
        SortedMembers(c.children);
        SizeOfMember(c.children, sorted[k]);
      }
      var kids := RenderChildren(c, sorted, g);
      assert g.children == DrawAll(kids, env);
      PlacedGroup(c, kids);
      placed := c.(children := kids);
      GroupDraw(placed, env);
      ghost var before := container.children;
      assert before == old(container.children);
      container.Append(Group(c.props.controlName, g.children));
      assert container.children == before + DrawTree(placed, env);
    }

    /**
     * The `forEach` over the sorted children: each child's `x`/`y` is
     * increased by the group's before the child is rendered into `g`.
     */
    method RenderChildren(group: Control, sorted: seq<Control>, g: Container) returns (kids: seq<Control>)
      requires forall k :: 0 <= k < |sorted| ==> Size(sorted[k]) < Size(group)
      modifies this, g
      ensures kids == PlaceEach(sorted, group.x, group.y)
      ensures g.children == old(g.children) + DrawAll(kids, env)
      ensures diagnostics == old(diagnostics) + DiagsAll(kids)
      decreases Size(group), 0
    {
      kids := [];
      var i := 0;
      while i < |sorted|
        invariant 0 <= i <= |sorted|
        invariant kids == PlaceEach(sorted[..i], group.x, group.y)
        invariant g.children == old(g.children) + DrawAll(PlaceEach(sorted[..i], group.x, group.y), env)
        invariant diagnostics == old(diagnostics) + DiagsAll(PlaceEach(sorted[..i], group.x, group.y))
      {
        var p := RenderNext(group, sorted, i, g, old(g.children), old(diagnostics));
        kids := kids + [p];
        i := i + 1;
      }
      assert sorted[..i] == sorted;
    }

    /**
     * One turn of the `forEach`: the `i`-th sorted child is shifted by the
     * group's position and rendered after its earlier siblings.
     */
    method RenderNext(group: Control, sorted: seq<Control>, i: nat, g: Container,
                      ghost drawn: seq<Element>, ghost diagnosed: seq<Diagnostic>) returns (placed: Control)
      requires i < |sorted| && Size(sorted[i]) < Size(group)
      requires g.children == drawn + DrawAll(PlaceEach(sorted[..i], group.x, group.y), env)
      requires diagnostics == diagnosed + DiagsAll(PlaceEach(sorted[..i], group.x, group.y))
      modifies this, g
      ensures placed == Place(sorted[i], group.x, group.y)
      ensures PlaceEach(sorted[..i + 1], group.x, group.y) == PlaceEach(sorted[..i], group.x, group.y) + [placed]
      ensures g.children == drawn + DrawAll(PlaceEach(sorted[..i + 1], group.x, group.y), env)
      ensures diagnostics == diagnosed + DiagsAll(PlaceEach(sorted[..i + 1], group.x, group.y))
      decreases Size(sorted[i]), 3
    {
      ghost var kids := PlaceEach(sorted[..i], group.x, group.y);
      ghost var before, reported := g.children, diagnostics;
      var shifted := Shift(sorted[i], group.x, group.y);
      placed := Render(shifted, g);
      ShiftThenPlace(sorted[i], group.x, group.y);
      PlaceEachSnoc(sorted, i, group.x, group.y);
      DrawStep(kids, placed, env, drawn, before, g.children);
      DiagStep(kids, placed, diagnosed, reported, diagnostics);
    }
  }
}

=== FILE: scene.dfy ===
/**
 * `Renderer.render` as a function of the placed control tree: the type tag
 * selects a drawing routine; an unknown tag draws nothing and yields one
 * diagnostic.
 */
module Scene {
  import opened Wrappers
  import opened Colors
  import opened Wireframe
  import opened Svg
  import opened Shapes

  /** `console.error("'<type>' control type not implemented")`. */
  datatype Diagnostic = NotImplemented(typeID: string)

  /** The closed set of type tags that have a drawing routine. */
  predicate Implemented(typeID: string) {
    typeID in {"TextArea", "Canvas", "Label", "TextInput", "Arrow", "Icon", "HRule", GroupType}
  }

  /**
   * The elements drawing the placed control `t` appends to its container
   * (positions in `t` are already absolute; a group's children are already
   * sorted and placed).
   */
  function DrawTree(t: Control, env: Env): (es: seq<Element>)
    ensures !Implemented(t.typeID) ==> es == []
    ensures Implemented(t.typeID) ==> |es| >= 1
    decreases t
  {
    match t.typeID
    case "TextArea" => [RectangleOf(t)]
    case "Canvas" => [RectangleOf(t)]
    case "Label" => [TextOf(t, ParseColor(t.props.color, Black), Left, env)]
    case "TextInput" => [RectangleOf(t), TextOf(t, ParseColor(t.props.textColor, Black), Center, env)]
    case "Arrow" => [ArrowOf(t)]
    case "Icon" => IconOf(t)
    case "HRule" => [HRuleOf(t)]
    case "__group__" => [Group(t.props.controlName, DrawAll(t.children, env))]
    case _ => []
  }

  /** The elements of sibling controls, in order. */
  function DrawAll(ts: seq<Control>, env: Env): (es: seq<Element>)
    ensures |ts| == 1 ==> es == DrawTree(ts[0], env)
    decreases ts
  {
    if ts == [] then []
    else DrawAll(ts[..|ts| - 1], env) + DrawTree(ts[|ts| - 1], env)
  }

  /** The diagnostics drawing `t` reports, in order. */
  function Diags(t: Control): (ds: seq<Diagnostic>)
    ensures !Implemented(t.typeID) ==> ds == [NotImplemented(t.typeID)]
    ensures Implemented(t.typeID) && t.typeID != GroupType ==> ds == []
    decreases t
  {
    if !Implemented(t.typeID) then [NotImplemented(t.typeID)]
    else if t.typeID == GroupType then DiagsAll(t.children)
    else []
  }

  /** The diagnostics of sibling controls, in order. */
  function DiagsAll(ts: seq<Control>): (ds: seq<Diagnostic>)
    ensures ts == [] ==> ds == []
    ensures |ts| == 1 ==> ds == Diags(ts[0])
    decreases ts
  {
    if ts == [] then []
    else DiagsAll(ts[..|ts| - 1]) + Diags(ts[|ts| - 1])
  }

  /**
   * Dispatch: an implemented tag reports nothing unless it is a group (which
   * reports its children's diagnostics); an unknown tag emits no element and
   * exactly one diagnostic naming it.
   */
  lemma Dispatch(t: Control, env: Env)
    ensures !Implemented(t.typeID) ==> DrawTree(t, env) == [] && Diags(t) == [NotImplemented(t.typeID)]
    ensures Implemented(t.typeID) && t.typeID != GroupType ==> Diags(t) == [] && |DrawTree(t, env)| >= 1
    ensures t.typeID == GroupType ==> DrawTree(t, env) == [Group(t.props.controlName, DrawAll(t.children, env))]
    ensures t.typeID == "TextArea" || t.typeID == "Canvas" ==> DrawTree(t, env) == [RectangleOf(t)]
    ensures t.typeID == "Label" ==> DrawTree(t, env) == [TextOf(t, ParseColor(t.props.color, Black), Left, env)]
    ensures t.typeID == "TextInput" ==>
      DrawTree(t, env) == [RectangleOf(t), TextOf(t, ParseColor(t.props.textColor, Black), Center, env)]
    ensures t.typeID == "Arrow" ==> DrawTree(t, env) == [ArrowOf(t)]
    ensures t.typeID == "Icon" ==> DrawTree(t, env) == IconOf(t)
    ensures t.typeID == "HRule" ==> DrawTree(t, env) == [HRuleOf(t)]
  {
  }

  /** Drawing concatenated siblings draws the two runs one after the other. */
  lemma DrawAllConcat(a: seq<Control>, b: seq<Control>, env: Env)
    ensures DrawAll(a + b, env) == DrawAll(a, env) + DrawAll(b, env)
    ensures DiagsAll(a + b) == DiagsAll(a) + DiagsAll(b)
  {
    DrawConcat(a, b, env);
    DiagsConcat(a, b);
  }

  lemma {:induction false} DrawConcat(a: seq<Control>, b: seq<Control>, env: Env)
    ensures DrawAll(a + b, env) == DrawAll(a, env) + DrawAll(b, env)
    decreases |b|
  {
    if b == [] {
      assert a + b == a;
    } else {
      var init, last := b[..|b| - 1], b[|b| - 1];
      assert a + b == (a + init) + [last];
      assert b == init + [last];
      DrawConcat(a, init, env);
      DrawAllSnoc(a + init, last, env);
      DrawAllSnoc(init, last, env);
      var da, di, dl := DrawAll(a, env), DrawAll(init, env), DrawTree(last, env);
      assert (da + di) + dl == da + (di + dl);
    }
  }

  lemma {:induction false} DiagsConcat(a: seq<Control>, b: seq<Control>)
    ensures DiagsAll(a + b) == DiagsAll(a) + DiagsAll(b)
    decreases |b|
  {
    if b == [] {
      assert a + b == a;
    } else {
      var init, last := b[..|b| - 1], b[|b| - 1];
      assert a + b == (a + init) + [last];
      assert b == init + [last];
      DiagsConcat(a, init);
      DiagsAllSnoc(a + init, last);
      DiagsAllSnoc(init, last);
      var da, di, dl := DiagsAll(a), DiagsAll(init), Diags(last);
      assert (da + di) + dl == da + (di + dl);
    }
  }

  /**
   * An unknown control is skipped without stopping its siblings: the
   * siblings' elements are exactly those drawn without it, and its one
   * diagnostic sits between theirs.
   */
  lemma {:induction false} UnknownSiblingSkipped(before: seq<Control>, u: Control, after: seq<Control>, env: Env)
    requires !Implemented(u.typeID)
    ensures DrawAll(before + [u] + after, env) == DrawAll(before + after, env)
    ensures DiagsAll(before + [u] + after) == DiagsAll(before) + [NotImplemented(u.typeID)] + DiagsAll(after)
  {
    DrawAllConcat(before + [u], after, env);
    DrawAllConcat(before, after, env);
    assert (before + [u])[..|before|] == before;
  }

  lemma GroupDraw(t: Control, env: Env)
    requires t.typeID == GroupType
    ensures DrawTree(t, env) == [Group(t.props.controlName, DrawAll(t.children, env))]
    ensures Diags(t) == DiagsAll(t.children)
  {
  }

  /**
   * One more sibling drawn after the earlier ones: what a container holds
   * after the sibling's elements are appended.
   */
  lemma DrawStep(kids: seq<Control>, t: Control, env: Env, base: seq<Element>, before: seq<Element>, after: seq<Element>)
    requires before == base + DrawAll(kids, env)
    requires after == before + DrawTree(t, env)
    ensures after == base + DrawAll(kids + [t], env)
  {
    DrawAllSnoc(kids, t, env);
  }

  lemma DiagStep(kids: seq<Control>, t: Control, base: seq<Diagnostic>, before: seq<Diagnostic>, after: seq<Diagnostic>)
    requires before == base + DiagsAll(kids)
    requires after == before + Diags(t)
    ensures after == base + DiagsAll(kids + [t])
  {
    DiagsAllSnoc(kids, t);
  }

  lemma DrawAllSnoc(ts: seq<Control>, t: Control, env: Env)
    ensures DrawAll(ts + [t], env) == DrawAll(ts, env) + DrawTree(t, env)
  {
    assert (ts + [t])[..|ts|] == ts;
  }

  lemma DiagsAllSnoc(ts: seq<Control>, t: Control)
    ensures DiagsAll(ts + [t]) == DiagsAll(ts) + Diags(t)
  {
    assert (ts + [t])[..|ts|] == ts;
  }
}

=== FILE: shapes.dfy ===
/**
 * The drawing routines of `Renderer`, as the elements each one emits for a
 * control: `parseFontProperties`, `drawRectangle`, `addText`, `Arrow`,
 * `Icon` and `HRule`.
 */
module Shapes {
  import opened Wrappers
  import opened Numbers
  import opened Colors
  import opened Markup
  import opened Wireframe
  import opened Svg

  const BorderWidth: real := 2.7
  const ArrowWidth: real := 4.0
  const RectRadius: real := 10.0
  const CircleRadius: real := 10.0
  const Bulge: real := 3.6

  /** `parseFontProperties`: style, weight and size from the properties, family from the renderer. */
  function ParseFontProperties(p: Props, family: string): (f: Font)
    ensures f.family == family
    ensures f.style == "italic" <==> p.italic
    ensures f.weight == "bold" <==> p.bold
    ensures f.style in {"italic", "normal"} && f.weight in {"bold", "normal"}
    ensures p.size.None? || p.size == Some("") ==> f.size == "13px"
    ensures p.size.Some? && p.size.value != "" ==> f.size == p.size.value + "px"
  {
    Font(
      if p.italic then "italic" else "normal",
      if p.bold then "bold" else "normal",
      if p.size.Some? && p.size.value != "" then p.size.value + "px" else "13px",
      family)
  }

  /** `w ?? measuredW`. */
  function Width(c: Control): Num { c.w.GetOr(c.measuredW) }

  /** `h ?? measuredH`. */
  function Height(c: Control): Num { c.h.GetOr(c.measuredH) }

  /** `drawRectangle`: a rounded rectangle inset by half the border width. */
  function RectangleOf(c: Control): (r: Element)
    ensures r.Rect? && IsTriple(r.fill) && IsTriple(r.stroke)
    ensures r.fill == ParseColor(c.props.color, White) && r.stroke == ParseColor(c.props.borderColor, Black)
    ensures r.fillOpacity == c.props.backgroundAlpha.GetOr(1.0)
  {
    Rect(
      Plus(c.x, BorderWidth / 2.0),
      Plus(c.y, BorderWidth / 2.0),
      Plus(Width(c), -BorderWidth),
      Plus(Height(c), -BorderWidth),
      RectRadius,
      ParseColor(c.props.color, White),
      c.props.backgroundAlpha.GetOr(1.0),
      ParseColor(c.props.borderColor, Black),
      BorderWidth)
  }

  /**
   * The rectangle's stroke stays inside the nominal box: its outer edge
   * (half a border width outside the path) meets the box on all four sides.
   * Corner radius and stroke width are fixed; fill, opacity and stroke
   * default to white, 1 and black.
   */
  lemma RectangleInset(c: Control)
    ensures var r := RectangleOf(c);
      r.Rect? && r.rx == 10.0 && r.strokeWidth == 2.7 &&
      (c.x.Fin? ==> r.x.Fin? && r.x.v - 1.35 == c.x.v) &&
      (c.y.Fin? ==> r.y.Fin? && r.y.v - 1.35 == c.y.v) &&
      (c.x.Fin? && Width(c).Fin? ==> r.width.Fin? && r.x.v + r.width.v + 1.35 == c.x.v + Width(c).v) &&
      (c.y.Fin? && Height(c).Fin? ==> r.height.Fin? && r.y.v + r.height.v + 1.35 == c.y.v + Height(c).v) &&
      (c.x.NaN? ==> r.x.NaN?) && (Width(c).NaN? ==> r.width.NaN?) &&
      (c.y.NaN? ==> r.y.NaN?) && (Height(c).NaN? ==> r.height.NaN?) &&
      (Width(c).Fin? ==> r.width == Fin(Width(c).v - 2.7)) &&
      (Height(c).Fin? ==> r.height == Fin(Height(c).v - 2.7)) &&
      (c.props.color.None? ==> r.fill == Rgb(255, 255, 255)) &&
      (c.props.borderColor.None? ==> r.stroke == Rgb(0, 0, 0)) &&
      (c.props.backgroundAlpha.None? ==> r.fillOpacity == 1.0)
  {
  }

  /** A 100 by 50 box at (10, 10) gives the rectangle (11.35, 11.35, 97.3, 47.3). */
  lemma RectangleExample(c: Control)
    requires c.x == Fin(10.0) && c.y == Fin(10.0) && c.w == Some(Fin(100.0)) && c.h == Some(Fin(50.0))
    ensures var r := RectangleOf(c);
      r.x == Fin(11.35) && r.y == Fin(11.35) && r.width == Fin(97.3) && r.height == Fin(47.3) && r.rx == 10.0
  {
  }

  datatype Align = Left | Center

  /**
   * `parseInt(String(control.w)) ?? parseInt(String(control.measuredW))`:
   * `parseInt` never yields `undefined`, so the fallback is dead and an
   * absent `w` gives NaN.
   */
  function CenterWidth(c: Control): (w: Num)
    ensures c.w.Some? ==> w == c.w.value
    ensures c.w.None? ==> w == NaN
  {
    match c.w
    case Some(n) => n
    case None => NaN
  }

  /** The text content of a control, `""` when absent. */
  function TextContent(c: Control): string { c.props.text.GetOr("") }

  /** `addText`: the `text` element with its runs. */
  function TextOf(c: Control, fill: Color, align: Align, env: Env): (t: Element)
    ensures t.Text? && t.fill == fill && |t.runs| >= 1
    ensures t.runs == Runs(TextContent(c), env.palette)
    ensures var font := ParseFontProperties(c.props, env.family);
      t.fontStyle == font.style && t.fontWeight == font.weight && t.fontSize == font.size
  {
    var content := TextContent(c);
    var font := ParseFontProperties(c.props, env.family);
    var m := env.measure(content, font);
    var x := if align == Center then Plus(Add(c.x, Half(CenterWidth(c))), -m.width / 2.0) else c.x;
    var y := Plus(Add(c.y, Half(c.measuredH)), m.ascent / 2.0);
    Text(x, y, fill, font.style, font.weight, font.size, Runs(content, env.palette))
  }

  /**
   * Where the text is anchored: at the control's `x` when left-aligned;
   * centred on the explicit width when centre-aligned (NaN when there is no
   * explicit width); and with half the ascent below the vertical middle of
   * the measured height. A NaN position or size gives a NaN anchor.
   */
  lemma TextAnchor(c: Control, fill: Color, align: Align, env: Env)
    ensures var t := TextOf(c, fill, align, env);
      var m := env.measure(TextContent(c), ParseFontProperties(c.props, env.family));
      t.Text? && t.fill == fill &&
      (align == Left ==> t.x == c.x) &&
      (align == Center && c.x.Fin? && c.w.Some? && c.w.value.Fin? ==>
         t.x.Fin? && t.x.v + m.width / 2.0 == c.x.v + c.w.value.v / 2.0) &&
      (align == Center && c.w.None? ==> t.x.NaN?) &&
      (align == Center && (c.x.NaN? || c.w == Some(NaN)) ==> t.x.NaN?) &&
      (c.y.Fin? && c.measuredH.Fin? ==>
         t.y.Fin? && t.y.v - m.ascent / 2.0 == c.y.v + c.measuredH.v / 2.0) &&
      (c.y.NaN? || c.measuredH.NaN? ==> t.y.NaN?)
  {
  }

  /** The three-way dash choice shared by arrows and rules. */
  function DashPattern(style: Option<string>, dotted: string, dashed: string): string {
    if style == Some("dotted") then dotted
    else if style == Some("dashed") then dashed
    else ""
  }

  /** The arrow's `stroke-dasharray`. */
  function ArrowDash(style: Option<string>): (d: string)
    ensures d == "0.8 12" <==> style == Some("dotted")
    ensures d == "28 46" <==> style == Some("dashed")
    ensures d == "" <==> style != Some("dotted") && style != Some("dashed")
  {
    DashPattern(style, "0.8 12", "28 46")
  }

  /** The rule's `stroke-dasharray`. */
  function RuleDash(style: Option<string>): (d: string)
    ensures d == "0.8, 8" <==> style == Some("dotted")
    ensures d == "18, 30" <==> style == Some("dashed")
    ensures d == "" <==> style != Some("dotted") && style != Some("dashed")
  {
    DashPattern(style, "0.8, 8", "18, 30")
  }

  /**
   * Dash patterns: dotted and dashed strokes get their fixed patterns and
   * every other value (absent included) the empty, solid pattern.
   */
  lemma DashChoice(style: Option<string>)
    ensures ArrowDash(style) != "" <==> style == Some("dotted") || style == Some("dashed")
    ensures RuleDash(style) != "" <==> style == Some("dotted") || style == Some("dashed")
    ensures style == Some("dotted") ==> ArrowDash(style) == "0.8 12" && RuleDash(style) == "0.8, 8"
    ensures style == Some("dashed") ==> ArrowDash(style) == "28 46" && RuleDash(style) == "18, 30"
  {
  }

  /** `Arrow`: one quadratic curve from `p0` to `p2`, bent by `p1`. */
  function ArrowOf(c: Control): (a: Element)
    ensures a.Path? && a.d.Quad? && IsTriple(a.stroke) && a.dash.Some?
    ensures a.dash == Some(ArrowDash(c.props.stroke)) && a.stroke == ParseColor(c.props.color, Black)
  {
    var p0, p1, p2 := c.props.p0, c.props.p1, c.props.p2;
    var lx := (p2.x - p0.x) * p1.x;
    var ly := (p2.y - p0.y) * p1.x;
    Path(
      Quad(
        Pt(Plus(c.x, p0.x), Plus(c.y, p0.y)),
        Pt(Plus(c.x, p0.x + lx + ly * p1.y * Bulge), Plus(c.y, p0.y + ly + -lx * p1.y * Bulge)),
        Pt(Plus(c.x, p2.x), Plus(c.y, p2.y))),
      ParseColor(c.props.color, Black),
      ArrowWidth,
      Some(ArrowDash(c.props.stroke)))
  }

  /**
   * The arrow's control point: from the point at fraction `p1.x` along the
   * chord from start to end, it is offset perpendicular to the chord by
   * `3.6 * p1.y` times that point's distance from the start, so `p1.y == 0`
   * gives a straight arrow. Start and end are `p0` and `p2` moved by the
   * control's position; a NaN position makes all three points NaN in that
   * coordinate.
   */
  lemma ArrowGeometry(c: Control)
    ensures var a := ArrowOf(c); a.Path? && a.d.Quad? && a.strokeWidth == 4.0
    ensures var a := ArrowOf(c);
      (c.x.NaN? ==> a.d.from.x.NaN? && a.d.ctrl.x.NaN? && a.d.to.x.NaN?) &&
      (c.y.NaN? ==> a.d.from.y.NaN? && a.d.ctrl.y.NaN? && a.d.to.y.NaN?)
    ensures c.x.Fin? && c.y.Fin? ==>
      var a := ArrowOf(c);
      var p0, p1, p2 := c.props.p0, c.props.p1, c.props.p2;
      a.d.from == Pt(Fin(c.x.v + p0.x), Fin(c.y.v + p0.y)) &&
      a.d.to == Pt(Fin(c.x.v + p2.x), Fin(c.y.v + p2.y)) &&
      var dx, dy := p2.x - p0.x, p2.y - p0.y;
      var ox := a.d.ctrl.x.v - (a.d.from.x.v + p1.x * dx);
      var oy := a.d.ctrl.y.v - (a.d.from.y.v + p1.x * dy);
      ox * dx + oy * dy == 0.0 &&
      ox == Bulge * p1.y * (p1.x * dy) && oy == -(Bulge * p1.y * (p1.x * dx)) &&
      (p1.y == 0.0 ==> ox == 0.0 && oy == 0.0)
  {
  }

  const CheckCircle: string := "check-circle"

  /** `Icon`: a filled circle, plus a white check mark for `check-circle`. */
  function IconOf(c: Control): (es: seq<Element>)
    ensures 1 <= |es| <= 2 && es[0].Circle? && IsTriple(es[0].fill)
    ensures es[0].fill == ParseColor(c.props.color, Black)
  {
    var r := CircleRadius;
    [Circle(Plus(c.x, r), Plus(c.y, r), r, ParseColor(c.props.color, Black))] +
    if c.props.iconID == CheckCircle then
      [Path(
        Polyline(Pt(Plus(c.x, 4.5), Plus(c.y, r)), Pt(Plus(c.x, 8.5), Plus(c.y, r + 4.0)), Pt(Plus(c.x, 15.0), Plus(c.y, r - 2.5))),
        Code("#fff"), 3.5, None)]
    else []
  }

  predicate InCircle(p: Pt, cx: Num, cy: Num, r: real) {
    p.x.Fin? && p.y.Fin? && cx.Fin? && cy.Fin? &&
    (p.x.v - cx.v) * (p.x.v - cx.v) + (p.y.v - cy.v) * (p.y.v - cy.v) < r * r
  }

  /**
   * An icon is one circle of radius 10 filling the 20 by 20 box at the
   * control's position, plus the check mark exactly for `check-circle`:
   * a white, undashed polyline of width 3.5 through (x+4.5, y+10),
   * (x+8.5, y+14) and (x+15, y+7.5), three points inside the circle.
   */
  lemma IconGeometry(c: Control)
    ensures var es := IconOf(c);
      (|es| == 2 <==> c.props.iconID == CheckCircle) && 1 <= |es| <= 2 &&
      es[0].Circle? && es[0].r == 10.0 &&
      (c.x.Fin? ==> es[0].cx == Fin(c.x.v + 10.0)) &&
      (c.y.Fin? ==> es[0].cy == Fin(c.y.v + 10.0)) &&
      (c.x.NaN? ==> es[0].cx.NaN?) && (c.y.NaN? ==> es[0].cy.NaN?) &&
      (|es| == 2 && c.x.Fin? && c.y.Fin? ==>
         es[1] == Path(Polyline(Pt(Fin(c.x.v + 4.5), Fin(c.y.v + 10.0)),
                                Pt(Fin(c.x.v + 8.5), Fin(c.y.v + 14.0)),
                                Pt(Fin(c.x.v + 15.0), Fin(c.y.v + 7.5))),
                       Code("#fff"), 3.5, None)) &&
      (|es| == 2 && c.x.Fin? && c.y.Fin? ==>
         es[1].Path? && es[1].d.Polyline? && es[1].stroke == Code("#fff") &&
         InCircle(es[1].d.from, es[0].cx, es[0].cy, 10.0) &&
         InCircle(es[1].d.via, es[0].cx, es[0].cy, 10.0) &&
         InCircle(es[1].d.to, es[0].cx, es[0].cy, 10.0))
  {
  }

  /** `HRule`: a horizontal line of the control's width. */
  function HRuleOf(c: Control): (r: Element)
    ensures r.Path? && r.d.Line? && IsTriple(r.stroke) && r.dash.Some?
    ensures r.dash == Some(RuleDash(c.props.stroke)) && r.stroke == ParseColor(c.props.color, Black)
  {
    Path(
      Line(Pt(c.x, c.y), Pt(Add(c.x, Width(c)), c.y)),
      ParseColor(c.props.color, Black),
      BorderWidth,
      Some(RuleDash(c.props.stroke)))
  }

  /** A rule is horizontal, starts at the control's position and spans its width. */
  lemma HRuleGeometry(c: Control)
    ensures var r := HRuleOf(c);
      r.Path? && r.d.Line? && r.strokeWidth == 2.7 &&
      r.d.from == Pt(c.x, c.y) && r.d.to.y == r.d.from.y &&
      (c.x.Fin? && Width(c).Fin? ==> r.d.to.x.Fin? && r.d.to.x.v - r.d.from.x.v == Width(c).v) &&
      (c.x.NaN? || Width(c).NaN? ==> r.d.to.x.NaN?) &&
      (c.props.color.None? ==> r.stroke == Rgb(0, 0, 0))
  {
  }
}

=== FILE: svg.dfy ===
/**
 * The emitted scene: the SVG elements the renderer creates, with their
 * attributes kept structured (no number or colour formatting).
 */
module Svg {
  import opened Wrappers
  import opened Numbers
  import opened Colors
  import opened Markup

  /** A point of a path's `d` attribute. */
  datatype Pt = Pt(x: Num, y: Num)

  /** A path's `d`: `M from Q ctrl to`, `M from L to`, or `M from L via to`. */
  datatype PathData =
    | Quad(from: Pt, ctrl: Pt, to: Pt)
    | Line(from: Pt, to: Pt)
    | Polyline(from: Pt, via: Pt, to: Pt)

  /** The `viewBox` of the root `svg`. */
  datatype ViewBox = ViewBox(x: Num, y: Num, width: Num, height: Num)

  /**
   * An element with the attributes it is created with. Every `path` has
   * `fill="none"` and round line caps and joins; a `g` carries
   * `class="clickable-group"` and `data-group-id` exactly when `groupId`
   * is non-empty; `dash` is `None` when no `stroke-dasharray` is set.
   */
  datatype Element =
    | Svg(viewBox: ViewBox, fontFamily: string, children: seq<Element>)
    | Rect(x: Num, y: Num, width: Num, height: Num, rx: real, fill: Color,
           fillOpacity: real, stroke: Color, strokeWidth: real)
    | Text(x: Num, y: Num, fill: Color, fontStyle: string, fontWeight: string,
           fontSize: string, runs: seq<Run>)
    | Path(d: PathData, stroke: Color, strokeWidth: real, dash: Option<string>)
    | Circle(cx: Num, cy: Num, r: real, fill: Color)
    | Group(groupId: string, children: seq<Element>)

  /** The font a text is measured with (`style weight size family`). */
  datatype Font = Font(style: string, weight: string, size: string, family: string)

  /** What the measuring canvas reports: width and bounding-box ascent. */
  datatype Metrics = Metrics(width: real, ascent: real)

  /**
   * The renderer's collaborators: the configured font family, the canvas
   * text measurement, and the `DEFAULT_COLORS` palette lookup
   * (`DEFAULT_COLORS[name][index]`).
   */
  datatype Env = Env(
    family: string,
    measure: (string, Font) -> Metrics,
    palette: (string, nat) -> string)
}

=== FILE: wireframe.dfy ===
/**
 * The wireframe document's controls (`Control` and its `properties`), as
 * values. Geometry fields hold what `Number.parseInt` makes of them.
 */
module Wireframe {
  import opened Wrappers
  import opened Numbers

  /** A point of an arrow's `p0`/`p1`/`p2` property (plain JSON numbers). */
  datatype Point = Point(x: real, y: real)

  /**
   * The `properties` a routine reads. JavaScript truthiness is folded in:
   * `italic`/`bold` are their truthiness, `controlName` is `""` when absent.
   */
  datatype Props = Props(
    color: Option<int>,
    borderColor: Option<int>,
    textColor: Option<int>,
    backgroundAlpha: Option<real>,
    text: Option<string>,
    italic: bool,
    bold: bool,
    size: Option<string>,
    stroke: Option<string>,
    iconID: string,
    p0: Point,
    p1: Point,
    p2: Point,
    controlName: string)

  /**
   * A control. `w`/`h` may be absent (then `measuredW`/`measuredH` stand in);
   * `children` is empty when the control has none.
   */
  datatype Control = Control(
    id: string,
    typeID: string,
    zOrder: int,
    x: Num,
    y: Num,
    w: Option<Num>,
    h: Option<Num>,
    measuredW: Num,
    measuredH: Num,
    props: Props,
    children: seq<Control>)

  const GroupType: string := "__group__"

  /** Number of controls in the tree rooted at `c`. */
  function Size(c: Control): nat {
    1 + SizeAll(c.children)
  }

  function SizeAll(cs: seq<Control>): nat {
    if cs == [] then 0 else Size(cs[0]) + SizeAll(cs[1..])
  }

  lemma {:induction false} SizeOfMember(cs: seq<Control>, k: Control)
    requires k in cs
    ensures Size(k) <= SizeAll(cs)
    decreases |cs|
  {
    if cs[0] != k {
      SizeOfMember(cs[1..], k);
    }
  }
}

=== FILE: wrappers.dfy ===
/** Optional values: a JavaScript property that may be `undefined`. */
module Wrappers {
  datatype Option<+T> = None | Some(value: T) {
    /** The value, or `default` when absent (JavaScript's `??`). */
    function GetOr(default: T): T {
      match this
      case Some(v) => v
      case None => default
    }
  }
}

=== FILE: zorder.dfy ===
/**
 * `controls.sort((a, b) => a.zOrder - b.zOrder)`: the built-in sort, which
 * is stable, ordering siblings by ascending z-order. It is specified here by
 * a functional insertion sort.
 */
module ZOrder {
  import opened Wireframe

  predicate Sorted(s: seq<Control>) {
    forall i, j :: 0 <= i < j < |s| ==> s[i].zOrder <= s[j].zOrder
  }

  /** Inserts `k` after every element whose z-order is not above its own. */
  function Insert(t: seq<Control>, k: Control): (r: seq<Control>)
    ensures multiset(r) == multiset(t) + multiset{k}
    ensures |r| == |t| + 1
    decreases |t|
  {
    if t == [] || t[|t| - 1].zOrder <= k.zOrder then t + [k]
    else
      var init := t[..|t| - 1];
      assert t == init + [t[|t| - 1]];
      Insert(init, k) + [t[|t| - 1]]
  }

  lemma {:induction false} InsertSorted(t: seq<Control>, k: Control)
    requires Sorted(t)
    ensures Sorted(Insert(t, k))
    decreases |t|
  {
    if !(t == [] || t[|t| - 1].zOrder <= k.zOrder) {
      var init, last := t[..|t| - 1], t[|t| - 1];
      assert t == init + [last];
      InsertSorted(init, k);
      var r0 := Insert(init, k);
      forall c | c in r0 ensures c.zOrder <= last.zOrder {
        InsertedBelow(init, k, last, c);
      }
      SortedSnoc(r0, last);
    }
  }

  /** Every element of `Insert(init, k)` is `k` or an element of `init`. */
  lemma InsertedBelow(init: seq<Control>, k: Control, last: Control, c: Control)
    requires Sorted(init + [last]) && k.zOrder <= last.zOrder
    requires c in Insert(init, k)
    ensures c.zOrder <= last.zOrder
  {
    assert c in multiset(Insert(init, k));
    if c != k {
      assert c in multiset(init);
      var i :| 0 <= i < |init| && init[i] == c;
      assert (init + [last])[i] == c && (init + [last])[|init|] == last;
    }
  }

  lemma SortedSnoc(r: seq<Control>, last: Control)
    requires Sorted(r)
    requires forall c :: c in r ==> c.zOrder <= last.zOrder
    ensures Sorted(r + [last])
  {
    var s := r + [last];
    forall i, j | 0 <= i < j < |s| ensures s[i].zOrder <= s[j].zOrder {
      assert s[i] == r[i];
      if j == |r| {
        assert r[i] in r;
      } else {
        assert s[j] == r[j];
      }
    }
  }

  /** The stable ascending sort of `s` by z-order. */
  function SortByZ(s: seq<Control>): (r: seq<Control>)
    ensures Sorted(r)
    ensures multiset(r) == multiset(s) && |r| == |s|
    decreases |s|
  {
    if s == [] then []
    else
      var init := s[..|s| - 1];
      assert s == init + [s[|s| - 1]];
      var sortedInit := SortByZ(init);
      InsertSorted(sortedInit, s[|s| - 1]);
      Insert(sortedInit, s[|s| - 1])
  }

  /** The elements of `s` whose z-order is `z`, in order. */
  function WithZ(s: seq<Control>, z: int): seq<Control>
    decreases |s|
  {
    if s == [] then []
    else WithZ(s[..|s| - 1], z) + (if s[|s| - 1].zOrder == z then [s[|s| - 1]] else [])
  }

  lemma {:induction false} WithZAppend(s: seq<Control>, k: Control, z: int)
    ensures WithZ(s + [k], z) == WithZ(s, z) + (if k.zOrder == z then [k] else [])
  {
    assert (s + [k])[..|s|] == s;
  }

  lemma {:induction false} InsertWithZ(t: seq<Control>, k: Control, z: int)
    ensures WithZ(Insert(t, k), z) == WithZ(t, z) + (if k.zOrder == z then [k] else [])
    decreases |t|
  {
    if t == [] || t[|t| - 1].zOrder <= k.zOrder {
      WithZAppend(t, k, z);
    } else {
      var init, last := t[..|t| - 1], t[|t| - 1];
      assert t == init + [last];
      assert Insert(t, k) == Insert(init, k) + [last];
      InsertWithZ(init, k, z);
      WithZAppend(Insert(init, k), last, z);
      WithZAppend(init, last, z);
    }
  }

  /**
   * Stability: for every z-order value, the controls that share it appear in
   * the sorted sequence in their original relative order.
   */
  lemma {:induction false} SortByZStable(s: seq<Control>, z: int)
    ensures WithZ(SortByZ(s), z) == WithZ(s, z)
    decreases |s|
  {
    if s != [] {
      var init, last := s[..|s| - 1], s[|s| - 1];
      SortByZStable(init, z);
      InsertWithZ(SortByZ(init), last, z);
    }
  }

  /** Applies `f` to every element. */
  function MapControls(f: Control -> Control, s: seq<Control>): (r: seq<Control>)
    ensures |r| == |s|
  {
    seq(|s|, i requires 0 <= i < |s| => f(s[i]))
  }

  lemma MapAppend(f: Control -> Control, s: seq<Control>, k: Control)
    ensures MapControls(f, s + [k]) == MapControls(f, s) + [f(k)]
  {
  }

  lemma {:induction false} InsertCommutes(f: Control -> Control, t: seq<Control>, k: Control)
    requires forall c :: f(c).zOrder == c.zOrder
    ensures Insert(MapControls(f, t), f(k)) == MapControls(f, Insert(t, k))
    decreases |t|
  {
    var mt := MapControls(f, t);
    if t == [] || t[|t| - 1].zOrder <= k.zOrder {
      MapAppend(f, t, k);
    } else {
      var init, last := t[..|t| - 1], t[|t| - 1];
      assert t == init + [last];
      MapAppend(f, init, last);
      assert mt[..|mt| - 1] == MapControls(f, init);
      InsertCommutes(f, init, k);
      MapAppend(f, Insert(init, k), last);
    }
  }

  /**
   * Sorting commutes with any change that keeps z-orders: shifting every
   * child and then sorting gives the same sequence as sorting and then
   * shifting.
   */
  lemma {:induction false} SortCommutes(f: Control -> Control, s: seq<Control>)
    requires forall c :: f(c).zOrder == c.zOrder
    ensures SortByZ(MapControls(f, s)) == MapControls(f, SortByZ(s))
    decreases |s|
  {
    if s != [] {
      var init, last := s[..|s| - 1], s[|s| - 1];
      var ms := MapControls(f, s);
      assert s == init + [last];
      MapAppend(f, init, last);
      assert ms[..|ms| - 1] == MapControls(f, init);
      SortCommutes(f, init);
      InsertCommutes(f, SortByZ(init), last);
    }
  }
}
